=== FILE: README.md ===
# Domino rules engine

This project models the rules engine of a two-player domino game, written in Dafny.
- There are two players: the person at the screen and an automatic opponent. The opponent plays the first move its search finds.
- The model covers:
  - the tiles, with their ends, orientation, quarter turns and open placement sites;
  - the hand and its selected tile;
  - the board, with its legality table for laying a tile and its overlap test;
  - the bounded first-hit move search;
  - the game's bookkeeping: the turn counter, the draw pile ("bazar"), the turn step `make_turn` and the end-of-game test `finished`.

The project has four modules, one per source file:

- `Utils` (`utils.dfy`) holds the value types:
  - orientations and directions;
  - rectangles with pygame `Rect` semantics;
  - the `Turn` record and the point-in-rectangle test.
- `Printables` (`printables.dfy`) holds:
  - `Tile`, `Hand` and `Board` as classes whose fields the methods update;
  - the legality table `Footprint` and `Board.IsValidTurn` as functions;
  - the search as three nested loop methods (`FindSite`, `FindTurn`, `FindPossibleTurn`).
  - The search is proved against the ghost predicate `SearchResult`: no result exactly when nothing fits, otherwise the first hit in hand, turn, placed-tile and site order.
- `Players` (`player.dfy`) holds the `Player` class: its hand, its kind and its ready flag.
- `Domino` (`main.dfy`) holds:
  - the tile set;
  - the points bookkeeping;
  - the turn-order function `Advance`;
  - the `Game` class, whose methods update the turn counter, the pile, the request flag, the end flag and the announcements.

A tile's logical state is the value `Pose`: its ends, orientation, angle and double flag. The rules read only this state, so the legality table is a pure function of poses. `is_valid_turn` answers in three ways, modelled as `Verdict`:
- `False` becomes `Refused`;
- `None` becomes `NoRule`;
- a tagged rectangle becomes `Accepted(footprint)`.

## Model

| member | source | states |
|---|---|---|
| Utils.Flip | printables.py:170-173 | the orientation a quarter turn gives is always the other one |
| Utils.Reverse | printables.py:207-212 | the reverse direction differs from the direction and stays on the same axis |
| Utils.ReverseIsInvolution | printables.py:207-212 | reversing twice gives the direction back |
| Utils.EnumsAreExhaustive | utils.py:7-16 | there are exactly two orientations and four distinct directions, and every value is one of them |
| Utils.Inflated | printables.py:425-426 | the inflated rectangle contains the original, is 2 wider and 2 higher, and covers every point of it |
| Utils.CollideList | printables.py:428-429 | -1 exactly when no rectangle collides; otherwise the index of the first colliding rectangle |
| Utils.InIt | utils.py:28-30 | true iff the point, moved back by the shift, lies in the half-open rectangle; with no shift, iff the point itself does |
| Utils.InItWithoutShiftIsZeroShift | utils.py:29 | no shift behaves as the shift (0, 0) |
| Utils.NewTurn | utils.py:19-25 | the record keeps tile, anchor, footprint and site as given; the hand tile is the one given, else the tile |
| Printables.FreshPose | printables.py:147-162 | a new tile is horizontal at angle 0, a double exactly when its ends agree, and consistent |
| Printables.Turned | printables.py:164-173 | a quarter turn flips the orientation, keeps the double flag and the two ends (maybe swapped), and keeps a consistent tile consistent |
| Printables.Spun | printables.py:164-173 | n quarter turns keep the double flag and the ends, and flip the orientation n times |
| Printables.TwoTurns | printables.py:164-173 | two turns move the angle by 180 and swap the ends exactly when the angle is a multiple of 90 |
| Printables.FourTurnsRestore | printables.py:164-173 | four quarter turns restore ends, orientation and angle |
| Printables.TwoTurnsSwapEnds | printables.py:164-173 | two quarter turns of a consistent tile swap its ends and keep its orientation |
| Printables.Trials | printables.py:17-26 | the four poses the search tries are the 0, 1, 2 and 3 quarter turns of the fresh copy |
| Printables.PlacementsFor | printables.py:175-203 | two sites along the tile's axis (right/left or top/bottom), plus the two across it for a double. The sites are 50 by 50, one per direction, each just beyond the named side, at the listed offsets |
| Printables.Filtered | printables.py:214-216 | a site is kept exactly when it was present and its direction is not dropped |
| Printables.FilteredIdempotent | printables.py:214-216 | filtering twice by the same directions changes nothing more |
| Printables.FilteredKeepsUntouched | printables.py:214-216 | a filter dropping no present direction keeps the list as it is, in order |
| Printables.Discarded | printables.py:205-216 | the dropped directions are the given one and the reverse of the other, and nothing else |
| Printables.FirstWithRect | printables.py:218-220 | the first site whose rectangle equals the given one, or -1 |
| Printables.RemoveFirstRect | printables.py:218-220 | with a site whose rectangle equals the given one, exactly the first such site leaves and the others keep their order; with none, nothing changes |
| Printables.Tile.constructor | printables.py:147-162 | a new tile: fresh pose, 100 by 50 at the origin, no sites |
| Printables.Tile.Rotate | printables.py:164-173 | the pose moves by one quarter turn; the rectangle keeps its corner and swaps width and height; the sites stay; consistency is kept |
| Printables.Tile.SetPosition | printables.py:85-86 | moves the corner to (x, y) and keeps the size |
| Printables.Tile.MakePossiblePlacements | printables.py:178-203 | the sites become those of `PlacementsFor` at the tile's rectangle |
| Printables.Tile.RemovePossiblePlacementsByDir | printables.py:205-216 | the sites become those whose direction is neither dropped one, in order |
| Printables.Tile.RemovePossiblePlacement | printables.py:218-220 | drops the first site equal by rectangle, if any |
| Printables.Without | printables.py:255-266 | the result keeps every element other than the removed one, and nothing else |
| Printables.WithoutAppend | printables.py:255-266 | removal keeps the remaining elements in their order: removing from a list with one more element at the end appends that element, unless it is the one removed |
| Printables.WithoutUnique | printables.py:255-266 | removing an element that occurs once shortens the list by exactly one |
| Printables.WithoutAbsent | printables.py:255-266 | removing an absent element changes nothing |
| Printables.Hand.constructor | printables.py:228-231 | a new hand is empty with nothing selected |
| Printables.Hand.AddTile | printables.py:241-253 | a tile not yet held is appended; a held tile changes nothing |
| Printables.Hand.RemoveTile | printables.py:255-266 | exactly that tile leaves, the others stay, and the selection is cleared when it was that tile |
| Printables.Hand.ChoseTile | printables.py:268-277 | selecting the selected tile clears the selection; selecting another replaces it |
| Printables.Hand.RotateChosenTile | printables.py:279-281 | the selected tile, if any, moves by one quarter turn: its rectangle keeps its corner and swaps width and height, its sites stay, and a consistent tile stays consistent |
| Printables.Footprint | printables.py:341-415 | a double laid along the direction of extension has no rule. Tiles laid the same way need the facing ends to match, and a plain tile laid across needs a double anchor. A footprint is one tile in size and covers its site |
| Printables.SameOrientationTable | printables.py:349-389 | the four same-orientation cases and their footprints, case by case: horizontal anchors at lines 349-357, vertical anchors at lines 382-389 |
| Printables.CrossNeedsDoubleAnchor | printables.py:368-401 | a plain tile across a plain anchor never fits, whether the anchor is horizontal (lines 368-369) or vertical (lines 400-401) |
| Printables.RectsExcept | printables.py:428-429 | the rectangles of all placed tiles but the excepted one |
| Printables.CollideListFindsOtherTile | printables.py:424-429 | `collidelist` finds a hit exactly when some tile other than the excepted one collides |
| Printables.Board.constructor | printables.py:301-306 | a new board has no tiles and no selected site |
| Printables.Board.ChoseArea | printables.py:308-312 | the selected site becomes the given anchor and site |
| Printables.Board.ClearArea | printables.py:314-317 | the selection is cleared |
| Printables.Board.IntersectsAnything | printables.py:424-429 | true iff the rectangle grown by one unit overlaps a placed tile other than the excepted one |
| Utils.TouchingIsOverlap | printables.py:425-429 | a non-empty rectangle collides with the grown rectangle exactly when it touches the original, along an edge or at a corner included |
| Printables.TouchingTileRefuses | printables.py:418-429 | a placed tile other than the anchor that touches the footprint, even only along an edge or at a corner, makes the board refuse the move |
| Printables.Board.IsValidTurn | printables.py:333-337 | with no area given and none selected, the verdict is refused |
| Printables.IsValidTurnVerdict | printables.py:333-422 | no rule exactly when the table has none. Refused exactly when the grown footprint overlaps another placed tile. Otherwise accepted, with the footprint tagged with the site's direction |
| Printables.IsValidTurnUsesChosenArea | printables.py:334-337 | with no area given, the selected area is judged |
| Printables.Board.PlaceTile | printables.py:319-331 | the selection is cleared and the tile joins the board (once), moved to (x, y) with its pose kept. Its new sites lack the one pointing back at the anchor. The anchor loses its sites in the direction used, and nothing else of it changes |
| Printables.AnchorClosesUsedDirection | printables.py:322-323 | after placing, the anchor has no site in the used direction and keeps all others |
| Printables.NewTileKeepsFarSite | printables.py:328-331 | a plain tile laid along the direction keeps exactly the site facing away from its anchor |
| Printables.Candidate | printables.py:17-26 | the pose a hand tile is tried in is consistent and carries the hand tile's ends |
| Printables.FindSite | printables.py:19-25 | nothing exactly when no site of any placed tile accepts the pose; otherwise the first accepting site in board order, with the board's footprint |
| Printables.FindTurn | printables.py:17-26 | a fresh copy is tried in its four quarter turns. Nothing exactly when no pose fits; otherwise the first fitting pose and site, with the copy left in that pose. The copy's rectangle always has the shape of its orientation (100 by 50 lying, 50 by 100 standing) |
| Printables.FindPossibleTurn | printables.py:15-27 | the result is the first hit in search order, with the hand tile as `tile_from_hand` and a fresh copy as the tile, shaped to its orientation; no result exactly when nothing fits |
| Printables.SearchFailsIffStuck | printables.py:15-27 | the search finds nothing exactly when no hand tile in any pose fits any open site |
| Printables.EmptyHandHasNoTurn | printables.py:15-27 | an empty hand has no move |
| Printables.SearchIsExhaustive | printables.py:15-27 | whenever some combination fits, the search returns a move |
| Printables.SearchIsSound | printables.py:15-27 | a move found comes from the hand, names a placed tile and one of its sites, and the board accepts it there with its footprint |
| Players.Player.constructor | player.py:18-21 | a new player has an empty hand and is not ready |
| Players.Player.Ready | player.py:29-30 | the player is ready |
| Players.Player.NotReady | player.py:32-33 | the player is not ready |
| Players.Player.Turn | player.py:64-81 | the automatic player's move is the search result, with no move exactly when it is stuck; its tile is new and shaped to its orientation. The person's move exists iff a tile is selected and the board accepts it at the selected site; it is the selected tile laid there, with the board's footprint |
| Players.RealTurnIsAccepted | player.py:77-80 | the person's move, judged at the site it names, is accepted again |
| Domino.Rows | main.py:32-36 | the rows list every pair (x, y) with a <= x <= y <= 6 once, in lexicographic order |
| Domino.PossibleTilesAreTheSet | main.py:32-36 | the full set has 28 distinct pairs (a, b) with 0 <= a <= b <= 6 |
| Domino.FullPile | main.py:57 | the copy of the set has those 28 distinct pairs |
| Domino.FirstIndex | main.py:350 | the position of the first occurrence, or the length when absent |
| Domino.RemoveFirst | main.py:350 | removing a present pair takes out exactly one copy of it; an absent one changes nothing |
| Domino.PlayersWithMinimumPoints | main.py:186-196 | the winners are exactly the players whose points are the least and at most `INF`, in player order |
| Domino.LowestFrom | main.py:186-196 | the reference definition: the players from k on with the fewest points, in increasing order |
| Domino.MinimumPointsAreLowest | main.py:186-196 | the loop's winners equal the reference list |
| Domino.MinimumExists | main.py:186-196 | some player has the fewest points |
| Domino.FishHasWinner | main.py:186-201 | when nobody exceeds `INF`, a blocked game has at least one winner |
| Domino.FirstEmptyHand | main.py:171-178 | the first player whose hand is empty, or -1 when none is |
| Domino.Advance | main.py:328-331 | after one or more advances the counter is a valid player index |
| Domino.AdvanceWraps | main.py:328-331 | up to n advances add the steps and wrap around once |
| Domino.TurnsCycle | main.py:328-331 | n advances come back to the same player, and fewer never do |
| Domino.EveryoneGetsATurn | main.py:328-331 | every player's turn comes within n advances |
| Domino.Announcement | main.py:174-177 | "You win!" exactly for the person, "You lose!" exactly for the automatic player |
| Domino.Game.constructor | main.py:52-62 | players are the person, then the automatic player, with empty hands, as `init_players` (main.py:129) later sets them; the constructor itself leaves them unset. The board is empty and the person moves first. The pile is the full set; no request, not over, no texts |
| Domino.Game.IncTurnNumber | main.py:328-331 | the counter moves one place on from the given start, or from the current player, modulo the number of players |
| Domino.Game.TakeFromBazar | main.py:347-352 | nothing exactly when the pile is empty. Otherwise the pair returned was in the pile and exactly that pair leaves it |
| Domino.Game.AddNewTileForPlayer | main.py:144-152 | fails exactly when no value is given and the pile is empty. Otherwise the hand gains exactly one new tile with the given value, or with a value taken from the pile; the new tile is 100 by 50, horizontal, with no sites |
| Domino.Game.TakeFromBazarForPlayer | main.py:333-345 | draws for the given player, or with none given only while the person asked on the person's turn, and only from a non-empty pile. A draw adds one new tile of a pair that leaves the pile and clears the request; otherwise nothing changes |
| Domino.Game.Play | main.py:321-326 | the turn passes on and the hand loses the move's hand tile. The tile is laid against its anchor at the footprint's corner, with its pose kept, and the selection is cleared. The laid tile's sites are its own but the one pointing back. The anchor loses its sites in the direction used and keeps its pose and rectangle, as the returned step records them from before |
| Domino.Game.Probe | main.py:296-299 | reports whether the current player has no move, changing nothing the rules read |
| Domino.Game.PersonTurn | main.py:295-326 | when stuck, the person asks for a tile while the pile lasts and otherwise passes, and the ready flag stays as it was. Otherwise: nothing until ready; then readiness is spent, and the move is played iff a tile is selected and the board accepts it at the selected site. When nothing is played, the selected tile keeps its pose, rectangle and sites. When a move is played, the laid tile keeps its pose and has its own sites but the one pointing back; the selected anchor loses its sites in the direction used and keeps its pose and rectangle |
| Domino.Game.PersonMove | main.py:306-326 | readiness is spent. The selected tile is laid at the selected site iff the board accepts it there, with the board's footprint and its pose kept; otherwise nothing else changes, the selected tile included. A laid tile has its own sites but the one pointing back; the anchor loses its sites in the direction used and keeps its pose and rectangle |
| Domino.Game.NetworkSearch | main.py:310 | no move exactly when the automatic player is stuck. A move lays a new tile, shaped to its orientation, for a hand tile at a site of a placed tile, where the board accepts it |
| Domino.Game.NetworkNoMove | main.py:312-319 | the stuck automatic player draws one tile of the pile while the pile lasts, and otherwise passes |
| Domino.Game.NetworkTurn | main.py:295-326 | the automatic player plays iff it is not stuck. Stuck, it draws or passes. A move passes the turn on, removes the hand tile and adds the new tile, shaped to its orientation, to the board at the footprint's corner. The new tile has its own sites but the one pointing back; the anchor, a tile on the board before, loses its sites in the direction used and keeps its pose and rectangle |
| Domino.Game.MakeTurn | main.py:295-326 | a stuck player passes on an empty pile; otherwise the person asks for a tile and the automatic player draws. Only a player with a move plays. Waiting, asking and drawing keep the counter; passing and playing advance it. Asking raises the request. Waiting, asking and passing leave the pile, the hand and the board as they were. Drawing moves one pair of the pile into the hand as a new tile and clears the request. Playing takes the hand tile off, lays the tile with its corner at the footprint's corner, clears the selection and leaves every other placed tile but the anchor alone. A step that plays nothing leaves the selected tile's pose, rectangle and sites alone. A person with a move either waits or plays, and plays the selected tile, pose kept, against the selected anchor. The laid tile has its own sites but the one pointing back; the anchor loses its sites in the direction used and keeps its pose and rectangle. The person's ready flag survives being stuck and is spent otherwise |
| Domino.Game.AnyoneCanMove | main.py:180-182 | true iff some player is not stuck |
| Domino.Game.ProbePlayer | main.py:181-182 | reports whether the given player has no move, changing nothing the rules read |
| Domino.Game.Finished | main.py:167-205 | sticky once over. Otherwise the first empty hand ends the game with its announcement. Failing that, the game ends iff the pile is empty and everyone is stuck, announcing the single winner, a draw for several, or nothing |

## Left out

- Drawing, sprites, images, fonts, buttons, the camera, the event loop and hand layout positions are presentation only, so they are not modelled. `init_players` only builds the two players, sizes their hands and deals through `add_new_tile_for_player`, so it is not modelled separately.
- `find_first_tile`, `init_game_start` and the points sum are not modelled. They use tile ordering and tile addition, and neither is defined in the modelled files. `Finished` therefore takes each player's points as an input sequence.
- `INF` is the float `1e4` in the source; here it is the integer 10000.
- `random.choice` is any element of the pile, picked by a nondeterministic choice.
- `add_new_tile_for_player` raises `RuntimeError` when there is nothing to draw; here it returns `false` and changes nothing.
- The hand's sprite group is an ordered sequence without duplicates; `remove_tile`'s re-fill only repositions tiles, so order is kept.
- The base `Player.turn` is abstract and raises; here only the two concrete kinds exist.
- `is_real_player()` is called throughout `main.py` (lines 131, 138, 151, 174, 198 and 297) but defined in none of the player classes of `player.py`, so as written each of those calls would raise `AttributeError`. The model supplies the evidently intended test, `Players.Player.IsRealPlayer`: true exactly for the person (`kind == Real`).
- `_set_board` passes a `position` to `Board` (main.py:76), but `Board.__init__` takes no arguments (printables.py:301). The board's screen position is presentation only, so the model builds the board without one.
- `Game.__init__` leaves `players` unset (main.py:55); `init_players` (main.py:128-129) creates the person and the automatic player. `Domino.Game.constructor` makes the two players at once, with empty hands and before any deal.
- The `covered` image flag of a new tile is not modelled.
- `Tile.rotate`'s surface rotation appears only as the rectangle's swapped width and height.
- Domino.Game.NetworkTurn: when a move is played, its ensures keep only that the hand tile was in the hand, that the anchor and its site were on the board before the call, and that the tile is new. That the move is the search's first hit is stated by `Players.Player.Turn` and `Printables.FindPossibleTurn`, not restated here, because the search changes nothing the rules read.
- Domino.Game.MakeTurn: for the person, it does not restate the selection conditions under which a ready person's move is played, nor the move's site and footprint; `Domino.Game.PersonTurn` and `Domino.Game.PersonMove` state them. For the automatic player, it does not restate that the laid tile is new; `Domino.Game.NetworkTurn` states it.
- Printables.Board.PlaceTile: its requires asks for a site whenever an anchor is given. As written, `place_tile` (printables.py:319-331) reads the site's direction whenever `next_to` is set, so it fails on an anchor without a site; every caller passes both or neither, and the model leaves that crash out.
- Printables.Board.IsValidTurn: its own ensures cover only the no-area case; the full verdict is stated by `Printables.IsValidTurnVerdict`.

=== FILE: main.dfy ===
/**
 * The game's bookkeeping: the draw pile (the "bazar") of the 28 tiles, the
 * turn counter that cycles through the players, the application of a move,
 * drawing for a player who cannot move, and the end of the game.
 */
module Domino {
  import opened Utils
  import opened Printables
  import opened Players

  // ---------------------------------------------------------------------
  // The tile set
  // ---------------------------------------------------------------------

  /** A tile value: the two ends, the smaller first. */
  type Pair = (int, int)

  /** Lexicographic order on pairs. */
  predicate Before(p: Pair, q: Pair)
  {
    p.0 < q.0 || (p.0 == q.0 && p.1 < q.1)
  }

  /** The pairs (a, b), (a, b + 1), ..., (a, 6). */
  function Row(a: int, b: int): (r: seq<Pair>)
    requires b <= 7
    decreases 7 - b
    ensures |r| == 7 - b
    ensures forall p :: p in r <==> p.0 == a && b <= p.1 <= 6
    ensures forall i, j :: 0 <= i < j < |r| ==> Before(r[i], r[j])
  {
    if b == 7 then [] else [(a, b)] + Row(a, b + 1)
  }

  /** 0 + 1 + ... + n. */
  function Triangle(n: nat): nat
  {
    if n == 0 then 0 else n + Triangle(n - 1)
  }

  /** Rows a..6: every pair (x, y) with a <= x <= y <= 6, in lexicographic order. */
  function Rows(a: int): (r: seq<Pair>)
    requires 0 <= a <= 7
    decreases 7 - a
    ensures |r| == Triangle(7 - a)
    ensures forall p :: p in r <==> a <= p.0 <= p.1 <= 6
    ensures forall i, j :: 0 <= i < j < |r| ==> Before(r[i], r[j])
    ensures forall i, j :: 0 <= i < j < |r| ==> r[i] != r[j]
  {
    if a == 7 then []
    else
      var row, rest := Row(a, a), Rows(a + 1);
      AscendingConcat(row, rest);
      row + rest
  }

  /** An ascending row followed by ascending rows that all come after it is ascending. */
  lemma AscendingConcat(row: seq<Pair>, rest: seq<Pair>)
    requires forall i, j :: 0 <= i < j < |row| ==> Before(row[i], row[j])
    requires forall i, j :: 0 <= i < j < |rest| ==> Before(rest[i], rest[j])
    requires forall p, q :: p in row && q in rest ==> Before(p, q)
    ensures forall i, j :: 0 <= i < j < |row + rest| ==> Before((row + rest)[i], (row + rest)[j])
  {
    var s := row + rest;
    forall i, j | 0 <= i < j < |s|
      ensures Before(s[i], s[j])
    {
      if j < |row| {
        assert s[i] == row[i] && s[j] == row[j];
      } else if i < |row| {
        assert s[i] == row[i] && s[i] in row;
        assert s[j] == rest[j - |row|] && s[j] in rest;
      } else {
        assert s[i] == rest[i - |row|] && s[j] == rest[j - |row|];
      }
    }
  }

  /** `POSSIBLE_TILES`: the 28 tiles of a double-six set. */
  function PossibleTiles(): seq<Pair>
  {
    Rows(0)
  }

  /** A copy of `POSSIBLE_TILES`. */
  method FullPile() returns (pile: seq<Pair>)
    ensures |pile| == 28 && forall p :: p in pile <==> 0 <= p.0 <= p.1 <= 6
    ensures forall i, j :: 0 <= i < j < |pile| ==> pile[i] != pile[j]
  {
    pile := PossibleTiles();
    PossibleTilesAreTheSet();
  }

  /** The set has 28 tiles, each (a, b) with 0 <= a <= b <= 6 exactly once. */
  lemma PossibleTilesAreTheSet()
    ensures |PossibleTiles()| == 28
    ensures forall p :: p in PossibleTiles() <==> 0 <= p.0 <= p.1 <= 6
    ensures forall i, j :: 0 <= i < j < |PossibleTiles()| ==> PossibleTiles()[i] != PossibleTiles()[j]
  {
    assert Triangle(7) == 28 by {
      assert Triangle(1) == 1;
      assert Triangle(2) == 3;
      assert Triangle(3) == 6;
      assert Triangle(4) == 10;
      assert Triangle(5) == 15;
      assert Triangle(6) == 21;
    }
  }

  // ---------------------------------------------------------------------
  // Draw pile and points
  // ---------------------------------------------------------------------

  /** The index of the first occurrence of `x` in `s`, or |s| when there is none. */
  function FirstIndex<T(==)>(s: seq<T>, x: T): (i: nat)
    ensures i <= |s|
    ensures i < |s| ==> s[i] == x
    ensures forall k :: 0 <= k < i ==> s[k] != x
  {
    if s == [] then 0
    else if s[0] == x then 0
    else 1 + FirstIndex(s[1..], x)
  }

  /** Python's `list.remove`, minus the error: drops the first occurrence of `x`. */
  function RemoveFirst<T(==)>(s: seq<T>, x: T): (r: seq<T>)
    ensures x !in s ==> r == s
    ensures x in s ==> multiset(r) == multiset(s) - multiset{x}
    ensures x in s ==> |r| == |s| - 1
  {
    var i := FirstIndex(s, x);
    if i == |s| then s
    else
      assert s == s[..i] + [x] + s[i + 1..];
      s[..i] + s[i + 1..]
  }

  /** `INF`: the bound the running minimum of points starts from. */
  const Inf := 10000

  /**
   * The players whose points are least, in player order; a player whose
   * points exceed `Inf` never counts. `minimum` starts at `Inf`, drops to each
   * smaller score, and the list restarts whenever it drops.
   */
  method PlayersWithMinimumPoints(points: seq<int>) returns (winners: seq<nat>)
    ensures forall k :: k in winners <==>
      0 <= k < |points| && points[k] <= Inf && forall m :: 0 <= m < |points| ==> points[k] <= points[m]
    ensures forall i, j :: 0 <= i < j < |winners| ==> winners[i] < winners[j]
  {
    winners := [];
    var minimum := Inf;
    for n := 0 to |points|
      invariant minimum <= Inf
      invariant forall m :: 0 <= m < n ==> minimum <= points[m]
      invariant minimum < Inf ==> exists m :: 0 <= m < n && points[m] == minimum
      invariant forall k :: k in winners <==> 0 <= k < n && points[k] == minimum
      invariant forall i, j :: 0 <= i < j < |winners| ==> winners[i] < winners[j]
      invariant forall i :: 0 <= i < |winners| ==> winners[i] < n
    {
      if points[n] < minimum {
        minimum := points[n];
        winners := [];
      }
      if minimum == points[n] {
        winners := winners + [n];
      }
    }
  }

  /** The index of the first player whose hand is empty, or -1. */
  function FirstEmptyHand(players: seq<Player>): (i: int)
    reads set p | p in players :: p.hand
    ensures -1 <= i < |players|
    ensures i == -1 <==> forall k :: 0 <= k < |players| ==> players[k].hand.tiles != []
    ensures 0 <= i ==> players[i].hand.tiles == [] &&
                       forall k :: 0 <= k < i ==> players[k].hand.tiles != []
  {
    if |players| == 0 then -1
    else if players[0].hand.tiles == [] then 0
    else
      var j := FirstEmptyHand(players[1..]);
      if j == -1 then -1 else j + 1
  }

  /** Strictly increasing indices. */
  predicate Increasing(s: seq<nat>)
  {
    forall i, j :: 0 <= i < j < |s| ==> s[i] < s[j]
  }

  /** Player `k` has the fewest points, and no more than `Inf`. */
  predicate Lowest(points: seq<int>, k: int)
  {
    0 <= k < |points| && points[k] <= Inf && forall m :: 0 <= m < |points| ==> points[k] <= points[m]
  }

  /** The players from `k` on with the fewest points, in player order. */
  function LowestFrom(points: seq<int>, k: nat): (r: seq<nat>)
    requires k <= |points|
    decreases |points| - k
    ensures forall x :: x in r <==> k <= x && Lowest(points, x)
    ensures Increasing(r)
  {
    if k == |points| then []
    else
      var rest := LowestFrom(points, k + 1);
      assert forall i :: 0 <= i < |rest| ==> rest[i] in rest;
      (if Lowest(points, k) then [k] else []) + rest
  }

  /** The players with the fewest points, in player order. */
  function LowestPlayers(points: seq<int>): seq<nat>
  {
    LowestFrom(points, 0)
  }

  lemma HeadIsMember<T>(s: seq<T>)
    ensures s != [] ==> s[0] in s
  {
  }

  /** Two increasing index lists with the same members are the same list. */
  lemma {:induction false} IncreasingByMembers(a: seq<nat>, b: seq<nat>)
    requires Increasing(a) && Increasing(b)
    requires forall x :: x in a <==> x in b
    ensures a == b
  {
    if a == [] || b == [] {
      HeadIsMember(a);
      HeadIsMember(b);
    } else {
      assert a[0] == b[0] by {
        assert a[0] in b && b[0] in a;
        assert forall x :: x in a ==> a[0] <= x;
        assert forall x :: x in b ==> b[0] <= x;
      }
      forall x
        ensures x in a[1..] <==> x in b[1..]
      {
        assert x in a[1..] <==> x in a && x != a[0];
        assert x in b[1..] <==> x in b && x != b[0];
      }
      IncreasingByMembers(a[1..], b[1..]);
      assert a == [a[0]] + a[1..] && b == [b[0]] + b[1..];
    }
  }

  /** `PlayersWithMinimumPoints` computes exactly `LowestPlayers`. */
  lemma MinimumPointsAreLowest(points: seq<int>, winners: seq<nat>)
    requires forall k :: k in winners <==> Lowest(points, k)
    requires Increasing(winners)
    ensures winners == LowestPlayers(points)
  {
    IncreasingByMembers(winners, LowestPlayers(points));
  }

  /** Some player has the fewest points. */
  lemma {:induction false} MinimumExists(points: seq<int>) returns (k: nat)
    requires |points| > 0
    ensures k < |points| && forall m :: 0 <= m < |points| ==> points[k] <= points[m]
  {
    if |points| == 1 {
      k := 0;
    } else {
      var init := points[..|points| - 1];
      var i := MinimumExists(init);
      k := if points[|points| - 1] < points[i] then |points| - 1 else i;
      forall m | 0 <= m < |points|
        ensures points[k] <= points[m]
      {
        if m < |points| - 1 {
          assert init[m] == points[m];
        }
      }
    }
  }

  /** When nobody's points exceed `Inf`, a blocked game has at least one winner. */
  lemma FishHasWinner(points: seq<int>)
    requires |points| > 0
    requires forall k :: 0 <= k < |points| ==> points[k] <= Inf
    ensures |LowestPlayers(points)| > 0
  {
    var k := MinimumExists(points);
    assert k in LowestPlayers(points);
  }

  // ---------------------------------------------------------------------
  // Turn order
  // ---------------------------------------------------------------------

  /** The turn counter after `steps` advances from `t` among `n` players. */
  function Advance(t: int, n: nat, steps: nat): (u: int)
    requires n > 0
    ensures steps > 0 ==> 0 <= u < n
  {
    if steps == 0 then t else (Advance(t, n, steps - 1) + 1) % n
  }

  /** One advance from an in-range counter: the next player, or back to the first. */
  lemma ModStep(u: int, n: nat)
    requires 0 <= u < n
    ensures (u + 1) % n == if u + 1 == n then 0 else u + 1
  {
  }

  /** Up to `n` advances from an in-range counter add the steps and wrap around once. */
  lemma {:induction false} AdvanceWraps(t: int, n: nat, steps: nat)
    requires 0 <= t < n && steps <= n
    ensures Advance(t, n, steps) == if t + steps < n then t + steps else t + steps - n
  {
    if steps > 0 {
      AdvanceWraps(t, n, steps - 1);
      ModStep(Advance(t, n, steps - 1), n);
    }
  }

  /** Turns go round: from any player, `n` advances come back to that player, and no fewer do. */
  lemma TurnsCycle(t: int, n: nat)
    requires 0 <= t < n
    ensures Advance(t, n, n) == t
    ensures forall steps :: 0 < steps < n ==> Advance(t, n, steps) != t
  {
    AdvanceWraps(t, n, n);
    forall steps | 0 < steps < n
      ensures Advance(t, n, steps) != t
    {
      AdvanceWraps(t, n, steps);
    }
  }

  /** Every player's turn comes within `n` advances. */
  lemma EveryoneGetsATurn(t: int, n: nat, p: int)
    requires 0 <= t < n && 0 <= p < n
    ensures exists steps :: 0 < steps <= n && Advance(t, n, steps) == p
  {
    var steps := if t < p then p - t else p - t + n;
    AdvanceWraps(t, n, steps);
    assert Advance(t, n, steps) == p;
  }

  // ---------------------------------------------------------------------
  // The game
  // ---------------------------------------------------------------------

  /** `REAL_PLAYER_NUMBER`: the person plays first in the list. */
  const RealPlayerNumber := 0

  const WinText := "You win!"
  const LoseText := "You lose!"
  const DrawText := "Fish!!!"

  /** The announcement when `p` wins: the person won, or the person lost. */
  function Announcement(p: Player): (text: string)
    ensures text == WinText <==> p.IsRealPlayer()
    ensures text == LoseText <==> !p.IsRealPlayer()
  {
    if p.IsRealPlayer() then WinText else LoseText
  }

  /** `now` is `before` and then one tile of value `v`, as a new tile is made. */
  ghost predicate GainedTile(now: seq<Tile>, before: seq<Tile>, v: Pair)
    reads now
  {
    && |now| == |before| + 1
    && now[..|before|] == before
    && now[|before|].State() == FreshPose(v.0, v.1)
    && now[|before|].placements == []
    && now[|before|].Valid()
  }

  /** The placed tiles in `ts` other than `anchor` and `laid`: those a move leaves alone. */
  ghost function OtherTiles(ts: seq<Tile>, anchor: Tile, laid: Tile): set<Tile>
  {
    set t | t in ts && t != anchor && t != laid
  }

  /**
   * The sites after `move.tile` is laid against `move.oldTile`, given the
   * anchor's sites, pose and rectangle before. The laid tile has its own sites
   * but the one pointing back. The anchor has lost the sites in the direction
   * used and kept its pose and rectangle.
   */
  ghost predicate LaidSites(move: Move, anchorSites: seq<Site>, anchorPose: Pose, anchorRect: Rect)
    reads move.tile, move.oldTile
  {
    && move.tile.placements ==
         Filtered(PlacementsFor(move.tile.rect, move.tile.orientation, move.tile.double), {Reverse(move.possibleRect.dir)})
    && (move.oldTile != move.tile ==>
          && move.oldTile.placements == Filtered(anchorSites, {move.possibleRect.dir})
          && move.oldTile.State() == anchorPose
          && move.oldTile.rect == anchorRect)
  }

  /** How a call of `MakeTurn` went. */
  datatype Step =
    | Waited | AskedForTile | Passed | Drew
      /** A move was laid; the anchor had these sites, pose and rectangle just before. */
    | Played(move: Move, anchorSites: seq<Site>, anchorPose: Pose, anchorRect: Rect)

  class Game {
    const players: seq<Player>
    const board: Board
    var turnNumber: int
    /** The draw pile ("bazar"). */
    var possibleTiles: seq<Pair>
    var userNeedsTile: bool
    var over: bool
    /** The announcements shown so far. */
    var texts: seq<string>

    ghost predicate Valid()
      reads this
    {
      && |players| > 0
      && 0 <= turnNumber < |players|
      && forall i, j :: 0 <= i < j < |players| ==> players[i] != players[j] && players[i].hand != players[j].hand
    }

    /**
     * A new game: the person and the automatic player with empty hands, an
     * empty board, the full pile, the person to move.
     */
    constructor ()
      ensures Valid()
      ensures |players| == 2 && players[0].IsRealPlayer() && !players[1].IsRealPlayer()
      ensures forall p :: p in players ==> fresh(p) && fresh(p.hand) && p.hand.tiles == [] && p.hand.chosen == null && !p.IsReady()
      ensures fresh(board) && board.tiles == [] && board.chosenArea.None?
      ensures turnNumber == 0
      ensures |possibleTiles| == 28 && forall p :: p in possibleTiles <==> 0 <= p.0 <= p.1 <= 6
      ensures forall i, j :: 0 <= i < j < |possibleTiles| ==> possibleTiles[i] != possibleTiles[j]
      ensures !userNeedsTile && !over && texts == []
    {
      var pile := FullPile();
      var person := new Player(Real);
      var network := new Player(Network);
      players := [person, network];
      board := new Board();
      turnNumber := 0;
      possibleTiles := pile;
      userNeedsTile := false;
      over := false;
      texts := [];
    }

    /**
     * `inc_turn_number`: the next player after the current one, or after
     * `initial` when it is given.
     */
    method IncTurnNumber(initial: Option<int>)
      requires Valid()
      modifies this`turnNumber
      ensures Valid()
      ensures turnNumber == Advance(if initial.Some? then initial.value else old(turnNumber), |players|, 1)
    {
      if initial.Some? {
        turnNumber := initial.value;
      }
      turnNumber := (turnNumber + 1) % |players|;
    }

    /**
     * `take_from_bazar`: nothing from an empty pile; otherwise some pair of
     * the pile, which leaves it.
     */
    method TakeFromBazar() returns (value: Option<Pair>)
      modifies this`possibleTiles
      ensures old(possibleTiles) == [] <==> value.None?
      ensures value.None? ==> possibleTiles == old(possibleTiles)
      ensures value.Some? ==>
        value.value in old(possibleTiles) && possibleTiles == RemoveFirst(old(possibleTiles), value.value)
    {
      if possibleTiles == [] {
        return None;
      }
      var i :| 0 <= i < |possibleTiles|;
      value := Some(possibleTiles[i]);
      possibleTiles := RemoveFirst(possibleTiles, possibleTiles[i]);
    }

    /**
     * `add_new_tile_for_player`: a new tile of the given value, or of a value
     * drawn from the pile, joins the player's hand. `ok` is false where the
     * source raises: no value given and the pile empty.
     */
    method AddNewTileForPlayer(player: Player, tileValue: Option<Pair>) returns (ok: bool)
      modifies this`possibleTiles, player.hand`tiles
      ensures ok <==> tileValue.Some? || old(possibleTiles) != []
      ensures !ok ==> possibleTiles == old(possibleTiles) && player.hand.tiles == old(player.hand.tiles)
      ensures ok ==> |player.hand.tiles| == |old(player.hand.tiles)| + 1 &&
                     fresh(player.hand.tiles[|old(player.hand.tiles)|])
      ensures ok && tileValue.Some? ==>
        possibleTiles == old(possibleTiles) && GainedTile(player.hand.tiles, old(player.hand.tiles), tileValue.value)
      ensures ok && tileValue.None? ==> exists v ::
        && v in old(possibleTiles)
        && possibleTiles == RemoveFirst(old(possibleTiles), v)
        && GainedTile(player.hand.tiles, old(player.hand.tiles), v)
    {
      var value := tileValue;
      if value.None? {
        value := TakeFromBazar();
      }
      if value.None? {
        return false;
      }
      var tile := new Tile(value.value.0, value.value.1);
      player.hand.AddTile(tile);
      ok := true;
    }

    /**
     * `take_from_bazar_for_player`: a draw for `player`, or, with no player
     * given, for the person, and then only while the person asked for a tile
     * and it is the person's turn. A draw from an empty pile changes nothing;
     * a draw clears the request.
     */
    method TakeFromBazarForPlayer(player: Player?)
      requires Valid()
      modifies this`possibleTiles, this`userNeedsTile
      modifies (if player != null then player else players[RealPlayerNumber]).hand`tiles
      ensures var draws := (player != null || (old(userNeedsTile) && old(turnNumber) == RealPlayerNumber)) &&
                           old(possibleTiles) != [];
        var target := if player != null then player else players[RealPlayerNumber];
        && (!draws ==>
              possibleTiles == old(possibleTiles) && userNeedsTile == old(userNeedsTile) &&
              target.hand.tiles == old(target.hand.tiles))
        && (draws ==>
              !userNeedsTile && |target.hand.tiles| == |old(target.hand.tiles)| + 1 &&
              fresh(target.hand.tiles[|old(target.hand.tiles)|]) &&
              exists v :: v in old(possibleTiles) && possibleTiles == RemoveFirst(old(possibleTiles), v) &&
                          GainedTile(target.hand.tiles, old(target.hand.tiles), v))
    {
      var target := player;
      if target == null {
        if userNeedsTile && turnNumber == RealPlayerNumber {
          target := players[RealPlayerNumber];
        } else {
          return;
        }
      }
      var value := TakeFromBazar();
      if value.None? {
        return;
      }
      var _ := AddNewTileForPlayer(target, value);
      userNeedsTile := false;
    }
  
    /**
     * The last lines of `make_turn`: the turn passes on, the hand gives up the
     * move's hand tile, the move's tile is laid against its anchor at the
     * footprint's corner, and the board's selection is cleared. The step
     * returned records the anchor as it was just before.
     */
    method Play(player: Player, move: Move) returns (ghost step: Step)
      requires Valid()
      modifies this`turnNumber, player.hand, board, move.tile, move.oldTile
      ensures Valid()
      ensures turnNumber == Advance(old(turnNumber), |players|, 1)
      ensures player.hand.tiles == Without(old(player.hand.tiles), move.tileFromHand)
      ensures player.hand.chosen == if old(player.hand.chosen) == move.tileFromHand then null else old(player.hand.chosen)
      ensures board.chosenArea.None?
      ensures board.tiles == if move.tile in old(board.tiles) then old(board.tiles) else old(board.tiles) + [move.tile]
      ensures move.tile.State() == old(move.tile.State())
      ensures move.tile.rect == Rect(move.rect.rect.x, move.rect.rect.y, old(move.tile.rect.w), old(move.tile.rect.h))
      ensures step == Played(move, old(move.oldTile.placements), old(move.oldTile.State()), old(move.oldTile.rect))
      ensures LaidSites(move, step.anchorSites, step.anchorPose, step.anchorRect)
    {
      step := Played(move, move.oldTile.placements, move.oldTile.State(), move.oldTile.rect);
      IncTurnNumber(None);
      player.hand.RemoveTile(move.tileFromHand);
      board.PlaceTile(move.tile, move.oldTile, Some(move.possibleRect), move.rect.rect.x, move.rect.rect.y);
      board.ClearArea();
    }

    /** `find_possible_turn` for the player whose turn it is: whether that player has no move. */
    method Probe() returns (stuck: bool)
      requires Valid()
      ensures stuck <==> old(Stuck(players[turnNumber].hand.tiles, board))
      ensures var chosen := players[turnNumber].hand.chosen;
        chosen != null ==> board.IsValidTurn(chosen.State(), None) == old(board.IsValidTurn(chosen.State(), None))
    {
      var player := players[turnNumber];
      var possible := FindPossibleTurn(player.hand, board);
      SearchFailsIffStuck(player.hand.tiles, board, possible);
      stuck := possible.None?;
    }

    /** The selected site's anchor, the one placed tile a person's move may change besides the tile laid. */
    function SelectedAnchor(): set<Tile>
      reads board
    {
      if board.chosenArea.Some? then {board.chosenArea.value.tile} else {}
    }

    /**
     * `make_turn` for the person. With no move anywhere the person asks for a
     * tile while the pile lasts and otherwise passes. With a move somewhere,
     * nothing happens until the person is ready; then readiness is spent and
     * the selected tile is laid at the selected site if the board accepts it.
     */
    method PersonTurn() returns (ghost step: Step)
      requires Valid() && players[turnNumber].IsRealPlayer()
      modifies this`turnNumber, this`userNeedsTile, players[turnNumber], players[turnNumber].hand
      modifies board, players[turnNumber].hand.chosen, SelectedAnchor()
      ensures Valid()
      ensures var cur := players[old(turnNumber)];
        old(Stuck(cur.hand.tiles, board)) ==> step == if old(possibleTiles) == [] then Passed else AskedForTile
      ensures var cur := players[old(turnNumber)];
        old(Stuck(cur.hand.tiles, board)) ==> cur.IsReady() == old(cur.IsReady())
      ensures var cur := players[old(turnNumber)];
        !old(Stuck(cur.hand.tiles, board)) ==>
          && (step == Waited || step.Played?)
          && (step.Played? <==>
                (old(cur.IsReady()) && old(cur.hand.chosen) != null &&
                 old(board.IsValidTurn(cur.hand.chosen.State(), None)).Accepted?))
          && !cur.IsReady()
      ensures var cur := players[old(turnNumber)];
        step.Played? ==>
          && old(board.chosenArea).Some?
          && step.move.tile == step.move.tileFromHand == old(cur.hand.chosen)
          && step.move.oldTile == old(board.chosenArea).value.tile
          && step.move.possibleRect == old(board.chosenArea).value.rect
          && step.move.rect == old(board.IsValidTurn(cur.hand.chosen.State(), None)).footprint
          && step.move.tile.State() == old(step.move.tile.State())
          && LaidSites(step.move, step.anchorSites, step.anchorPose, step.anchorRect)
          && step.anchorSites == old(step.move.oldTile.placements)
          && step.anchorPose == old(step.move.oldTile.State()) && step.anchorRect == old(step.move.oldTile.rect)
      ensures var cur := players[old(turnNumber)];
        !step.Played? ==>
          && cur.hand.tiles == old(cur.hand.tiles) && cur.hand.chosen == old(cur.hand.chosen)
          && unchanged(board) && unchanged(board.tiles)
      ensures step.Played? ==> unchanged(OtherTiles(old(board.tiles), step.move.oldTile, step.move.tile))
      ensures var c := old(players[turnNumber].hand.chosen); !step.Played? && c != null ==> unchanged(c)
      ensures step == Waited ==> turnNumber == old(turnNumber) && userNeedsTile == old(userNeedsTile)
      ensures step == AskedForTile ==> turnNumber == old(turnNumber) && userNeedsTile
      ensures step == Passed ==> turnNumber == Advance(old(turnNumber), |players|, 1) && userNeedsTile == old(userNeedsTile)
      ensures var cur := players[old(turnNumber)];
        step.Played? ==>
          && turnNumber == Advance(old(turnNumber), |players|, 1) && userNeedsTile == old(userNeedsTile)
          && cur.hand.tiles == Without(old(cur.hand.tiles), step.move.tileFromHand)
          && board.chosenArea.None?
          && board.tiles == (if step.move.tile in old(board.tiles) then old(board.tiles) else old(board.tiles) + [step.move.tile])
          && step.move.tile.rect.x == step.move.rect.rect.x && step.move.tile.rect.y == step.move.rect.rect.y
    {
      var player := players[turnNumber];
      var stuck := Probe();
      if stuck {
        if possibleTiles != [] {
          userNeedsTile := true;
          step := AskedForTile;
        } else {
          IncTurnNumber(None);
          step := Passed;
        }
        return;
      }
      if !player.IsReady() {
        return Waited;
      }
      step := PersonMove();
    }

    /**
     * The part of `make_turn` for a ready person who has a move somewhere:
     * readiness is spent, and the selected tile is laid at the selected site
     * when the board accepts it there.
     */
    method PersonMove() returns (ghost step: Step)
      requires Valid() && players[turnNumber].IsRealPlayer()
      modifies this`turnNumber, players[turnNumber], players[turnNumber].hand
      modifies board, players[turnNumber].hand.chosen, SelectedAnchor()
      ensures Valid()
      ensures var cur := players[old(turnNumber)];
        && !cur.IsReady()
        && (step == Waited || step.Played?)
        && (step.Played? <==>
              (old(cur.hand.chosen) != null && old(board.IsValidTurn(cur.hand.chosen.State(), None)).Accepted?))
      ensures var cur := players[old(turnNumber)];
        step.Played? ==>
          && old(board.chosenArea).Some?
          && step.move.tile == step.move.tileFromHand == old(cur.hand.chosen)
          && step.move.oldTile == old(board.chosenArea).value.tile
          && step.move.possibleRect == old(board.chosenArea).value.rect
          && step.move.rect == old(board.IsValidTurn(cur.hand.chosen.State(), None)).footprint
          && step.move.tile.State() == old(step.move.tile.State())
          && LaidSites(step.move, step.anchorSites, step.anchorPose, step.anchorRect)
          && step.anchorSites == old(step.move.oldTile.placements)
          && step.anchorPose == old(step.move.oldTile.State()) && step.anchorRect == old(step.move.oldTile.rect)
          && turnNumber == Advance(old(turnNumber), |players|, 1)
          && cur.hand.tiles == Without(old(cur.hand.tiles), step.move.tileFromHand)
          && board.chosenArea.None?
          && board.tiles == (if step.move.tile in old(board.tiles) then old(board.tiles) else old(board.tiles) + [step.move.tile])
          && step.move.tile.rect.x == step.move.rect.rect.x && step.move.tile.rect.y == step.move.rect.rect.y
      ensures step.Played? ==> unchanged(OtherTiles(old(board.tiles), step.move.oldTile, step.move.tile))
      ensures var c := old(players[turnNumber].hand.chosen); step == Waited && c != null ==> unchanged(c)
      ensures var cur := players[old(turnNumber)];
        step == Waited ==>
          && turnNumber == old(turnNumber)
          && cur.hand.tiles == old(cur.hand.tiles) && cur.hand.chosen == old(cur.hand.chosen)
          && unchanged(board) && unchanged(board.tiles)
    {
      var player := players[turnNumber];
      ghost var verdict := if player.hand.chosen != null then board.IsValidTurn(player.hand.chosen.State(), None) else Refused;
      player.NotReady();
      var turn := player.Turn(board);
      assert player.hand.chosen != null ==> board.IsValidTurn(player.hand.chosen.State(), None) == verdict;
      if turn.None? {
        return Waited;
      }
      step := Play(player, turn.value);
    }

    /**
     * The automatic player's `turn`: the search over its hand. No move exactly
     * when the player is stuck; a move lays a new tile for one of the hand's
     * tiles at an open site of a placed tile, where the board accepts it.
     */
    method NetworkSearch() returns (turn: Option<Move>)
      requires Valid() && !players[turnNumber].IsRealPlayer()
      ensures turn.None? <==> old(Stuck(players[turnNumber].hand.tiles, board))
      ensures turn.Some? ==>
        && fresh(turn.value.tile) && turn.value.tile.Valid()
        && turn.value.tileFromHand in players[turnNumber].hand.tiles
        && exists j :: 0 <= j < |board.tiles| && turn.value.oldTile == board.tiles[j] &&
                       turn.value.possibleRect in board.tiles[j].placements
      ensures turn.Some? ==>
        board.IsValidTurn(turn.value.tile.State(), Some(Area(turn.value.oldTile, turn.value.possibleRect))) ==
        Accepted(turn.value.rect)
    {
      var player := players[turnNumber];
      turn := player.Turn(board);
      SearchFailsIffStuck(player.hand.tiles, board, turn);
      if turn.Some? {
        SearchIsSound(player.hand.tiles, board, turn);
      }
    }

    /**
     * `make_turn` for the automatic player: the move the search finds is
     * played; with none, the player draws while the pile lasts and otherwise
     * passes.
     */
    method NetworkTurn() returns (ghost step: Step)
      requires Valid() && !players[turnNumber].IsRealPlayer()
      modifies this`turnNumber, this`possibleTiles, this`userNeedsTile, players[turnNumber].hand, board, board.tiles
      ensures Valid()
      ensures var cur := players[old(turnNumber)];
        old(Stuck(cur.hand.tiles, board)) <==> !step.Played?
      ensures var cur := players[old(turnNumber)];
        !step.Played? ==> step == if old(possibleTiles) == [] then Passed else Drew
      ensures var cur := players[old(turnNumber)];
        !step.Played? ==> cur.hand.chosen == old(cur.hand.chosen)
      ensures var c := old(players[turnNumber].hand.chosen); !step.Played? && c != null ==> unchanged(c)
      ensures step.Played? ==> unchanged(OtherTiles(old(board.tiles), step.move.oldTile, step.move.tile))
      ensures var cur := players[old(turnNumber)];
        step == Passed ==>
          && turnNumber == Advance(old(turnNumber), |players|, 1)
          && possibleTiles == old(possibleTiles) && userNeedsTile == old(userNeedsTile)
          && cur.hand.tiles == old(cur.hand.tiles)
          && unchanged(board) && unchanged(board.tiles)
      ensures var cur := players[old(turnNumber)];
        step == Drew ==>
          && turnNumber == old(turnNumber) && !userNeedsTile
          && unchanged(board) && unchanged(board.tiles)
          && |cur.hand.tiles| == |old(cur.hand.tiles)| + 1 && fresh(cur.hand.tiles[|old(cur.hand.tiles)|])
          && exists v :: v in old(possibleTiles) && possibleTiles == RemoveFirst(old(possibleTiles), v) &&
                         GainedTile(cur.hand.tiles, old(cur.hand.tiles), v)
      ensures var cur := players[old(turnNumber)];
        step.Played? ==>
          && fresh(step.move.tile) && step.move.tile.Valid()
          && step.move.tileFromHand in old(cur.hand.tiles)
          && exists j :: 0 <= j < |old(board.tiles)| && step.move.oldTile == old(board.tiles[j]) &&
                         step.move.possibleRect in old(board.tiles[j].placements) &&
                         step.anchorSites == old(board.tiles[j].placements) &&
                         step.anchorPose == old(board.tiles[j].State()) && step.anchorRect == old(board.tiles[j].rect)
      ensures step.Played? ==> LaidSites(step.move, step.anchorSites, step.anchorPose, step.anchorRect)
      ensures var cur := players[old(turnNumber)];
        step.Played? ==>
          && turnNumber == Advance(old(turnNumber), |players|, 1)
          && possibleTiles == old(possibleTiles) && userNeedsTile == old(userNeedsTile)
          && cur.hand.tiles == Without(old(cur.hand.tiles), step.move.tileFromHand)
          && board.chosenArea.None?
          && board.tiles == old(board.tiles) + [step.move.tile]
          && step.move.tile.rect.x == step.move.rect.rect.x && step.move.tile.rect.y == step.move.rect.rect.y
    {
      var player := players[turnNumber];
      var turn := NetworkSearch();
      if turn.None? {
        step := NetworkNoMove();
        return;
      }
      step := Play(player, turn.value);
    }

    /**
     * The part of `make_turn` for an automatic player with no move: it draws
     * from the pile while the pile lasts, and otherwise passes.
     */
    method NetworkNoMove() returns (ghost step: Step)
      requires Valid() && !players[turnNumber].IsRealPlayer()
      modifies this`turnNumber, this`possibleTiles, this`userNeedsTile, players[turnNumber].hand`tiles
      ensures Valid()
      ensures step == if old(possibleTiles) == [] then Passed else Drew
      ensures var cur := players[old(turnNumber)];
        step == Passed ==>
          && turnNumber == Advance(old(turnNumber), |players|, 1)
          && possibleTiles == old(possibleTiles) && userNeedsTile == old(userNeedsTile)
          && cur.hand.tiles == old(cur.hand.tiles)
          && unchanged(board) && unchanged(board.tiles)
      ensures var cur := players[old(turnNumber)];
        step == Drew ==>
          && turnNumber == old(turnNumber) && !userNeedsTile
          && unchanged(board) && unchanged(board.tiles)
          && |cur.hand.tiles| == |old(cur.hand.tiles)| + 1 && fresh(cur.hand.tiles[|old(cur.hand.tiles)|])
          && exists v :: v in old(possibleTiles) && possibleTiles == RemoveFirst(old(possibleTiles), v) &&
                         GainedTile(cur.hand.tiles, old(cur.hand.tiles), v)
    {
      var player := players[turnNumber];
      if possibleTiles != [] {
        TakeFromBazarForPlayer(player);
        step := Drew;
      } else {
        IncTurnNumber(None);
        step := Passed;
      }
    }

    /**
     * `make_turn`: one step of the player whose turn it is. A player with no
     * move anywhere passes once the pile is empty; before that the person
     * asks for a tile and the automatic player draws one. A move, once made,
     * passes the turn on, leaves the hand and lays a tile on the board.
     */
    method MakeTurn() returns (ghost step: Step)
      requires Valid()
      modifies this`turnNumber, this`possibleTiles, this`userNeedsTile, players[turnNumber], players[turnNumber].hand
      modifies board, board.tiles, players[turnNumber].hand.chosen, SelectedAnchor()
      ensures Valid()
      ensures var cur := players[old(turnNumber)];
        old(Stuck(cur.hand.tiles, board)) ==>
          step == if old(possibleTiles) == [] then Passed else if cur.IsRealPlayer() then AskedForTile else Drew
      ensures var cur := players[old(turnNumber)];
        step.Played? ==> !old(Stuck(cur.hand.tiles, board))
      ensures var cur := players[old(turnNumber)];
        !cur.IsRealPlayer() ==> (step.Played? <==> !old(Stuck(cur.hand.tiles, board)))
      ensures step == Waited || step == AskedForTile || step == Drew ==> turnNumber == old(turnNumber)
      ensures step == Passed || step.Played? ==> turnNumber == Advance(old(turnNumber), |players|, 1)
      ensures var cur := players[old(turnNumber)];
        step.Played? ==>
          && cur.hand.tiles == Without(old(cur.hand.tiles), step.move.tileFromHand)
          && board.tiles == (if step.move.tile in old(board.tiles) then old(board.tiles) else old(board.tiles) + [step.move.tile])
          && board.chosenArea.None?
          && possibleTiles == old(possibleTiles) && userNeedsTile == old(userNeedsTile)
          && unchanged(OtherTiles(old(board.tiles), step.move.oldTile, step.move.tile))
      ensures step.Played? ==>
        step.move.tile.rect.x == step.move.rect.rect.x && step.move.tile.rect.y == step.move.rect.rect.y
      ensures var cur := players[old(turnNumber)];
        cur.IsRealPlayer() && !old(Stuck(cur.hand.tiles, board)) ==> step == Waited || step.Played?
      ensures var cur := players[old(turnNumber)];
        cur.IsRealPlayer() && step.Played? ==>
          && step.move.tile == step.move.tileFromHand == old(cur.hand.chosen)
          && step.move.tile.State() == old(cur.hand.chosen.State())
          && old(board.chosenArea).Some? && step.move.oldTile == old(board.chosenArea).value.tile
          && step.anchorSites == old(board.chosenArea.value.tile.placements)
          && step.anchorPose == old(board.chosenArea.value.tile.State())
          && step.anchorRect == old(board.chosenArea.value.tile.rect)
      ensures var cur := players[old(turnNumber)];
        !cur.IsRealPlayer() && step.Played? ==>
          && step.move.tileFromHand in old(cur.hand.tiles)
          && exists j :: 0 <= j < |old(board.tiles)| && step.move.oldTile == old(board.tiles[j]) &&
                         step.move.possibleRect in old(board.tiles[j].placements) &&
                         step.anchorSites == old(board.tiles[j].placements) &&
                         step.anchorPose == old(board.tiles[j].State()) && step.anchorRect == old(board.tiles[j].rect)
      ensures step.Played? ==> LaidSites(step.move, step.anchorSites, step.anchorPose, step.anchorRect)
      ensures var c := old(players[turnNumber].hand.chosen); !step.Played? && c != null ==> unchanged(c)
      ensures step == AskedForTile ==> userNeedsTile
      ensures step == Waited || step == Passed ==> userNeedsTile == old(userNeedsTile)
      ensures var cur := players[old(turnNumber)];
        step == Waited || step == AskedForTile || step == Passed ==>
          && possibleTiles == old(possibleTiles)
          && cur.hand.tiles == old(cur.hand.tiles) && cur.hand.chosen == old(cur.hand.chosen)
          && unchanged(board) && unchanged(board.tiles)
      ensures var cur := players[old(turnNumber)];
        step == Drew ==>
          && !userNeedsTile && cur.hand.chosen == old(cur.hand.chosen)
          && unchanged(board) && unchanged(board.tiles)
          && |cur.hand.tiles| == |old(cur.hand.tiles)| + 1 && fresh(cur.hand.tiles[|old(cur.hand.tiles)|])
          && exists v :: v in old(possibleTiles) && possibleTiles == RemoveFirst(old(possibleTiles), v) &&
                         GainedTile(cur.hand.tiles, old(cur.hand.tiles), v)
      ensures var cur := players[old(turnNumber)];
        cur.IsRealPlayer() ==>
          && (old(Stuck(cur.hand.tiles, board)) ==> cur.IsReady() == old(cur.IsReady()))
          && (!old(Stuck(cur.hand.tiles, board)) ==> !cur.IsReady())
    {
      var player := players[turnNumber];
      if player.IsRealPlayer() {
        step := PersonTurn();
      } else {
        step := NetworkTurn();
      }
    }

    /**
     * The `any(...)` of `finished`: whether some player has a move, asking
     * each in turn and stopping at the first that has one.
     */
    method AnyoneCanMove() returns (any: bool)
      requires Valid()
      ensures any <==> exists n :: 0 <= n < |players| && !old(Stuck(players[n].hand.tiles, board))
    {
      for n := 0 to |players|
        invariant forall m :: 0 <= m < n ==> old(Stuck(players[m].hand.tiles, board))
      {
        var stuck := ProbePlayer(n);
        if !stuck {
          return true;
        }
      }
      return false;
    }

    /** `find_possible_turn` for player `n`: whether that player has no move. */
    method ProbePlayer(n: nat) returns (stuck: bool)
      requires Valid() && n < |players|
      ensures stuck <==> old(Stuck(players[n].hand.tiles, board))
    {
      var possible := FindPossibleTurn(players[n].hand, board);
      SearchFailsIffStuck(players[n].hand.tiles, board, possible);
      stuck := possible.None?;
    }

    /** The announcement of a blocked game: one winner is announced, several make a draw. */
    function FishTexts(points: seq<int>): seq<string>
      requires |points| == |players|
    {
      var winners := LowestPlayers(points);
      if |winners| == 1 then
        HeadIsMember(winners);
        [Announcement(players[winners[0]])]
      else if |winners| > 1 then [DrawText]
      else []
    }

    /**
     * `finished`, given each player's points. Once over, the game stays over.
     * Otherwise the first player with an empty hand ends it, as a win for the
     * person or a loss; failing that, the game is blocked ("fish") when the
     * pile is empty and nobody has a move, and the players with the fewest
     * points decide the announcement.
     */
    method Finished(points: seq<int>) returns (result: bool)
      requires Valid() && |points| == |players|
      modifies this`over, this`texts
      ensures result == over
      ensures old(over) ==> over && texts == old(texts)
      ensures var e := FirstEmptyHand(players);
        !old(over) && 0 <= e ==> over && texts == old(texts) + [Announcement(players[e])]
      ensures !old(over) && FirstEmptyHand(players) == -1 ==>
        && (over <==> old(possibleTiles) == [] &&
                      forall n :: 0 <= n < |players| ==> old(Stuck(players[n].hand.tiles, board)))
        && texts == old(texts) + (if over then FishTexts(points) else [])
    {
      if over {
        return true;
      }
      for i := 0 to |players|
        invariant forall k :: 0 <= k < i ==> players[k].hand.tiles != []
        invariant !over && texts == old(texts)
      {
        if players[i].hand.tiles == [] {
          over := true;
          texts := texts + [Announcement(players[i])];
          return true;
        }
      }
      if possibleTiles == [] {
        var anyone := AnyoneCanMove();
        if !anyone {
          over := true;
          var winners := PlayersWithMinimumPoints(points);
          MinimumPointsAreLowest(points, winners);
          if |winners| == 1 {
            HeadIsMember(winners);
            texts := texts + [Announcement(players[winners[0]])];
          }
          if |winners| > 1 {
            texts := texts + [DrawText];
          }
        }
      }
      result := over;
    }
  }
}

=== FILE: player.dfy ===
/**
 * The two players of the game: the person at the screen, whose move is the
 * tile and site they selected, and the automatic opponent, whose move is the
 * first one the search finds. Each holds a hand and a ready flag that the
 * person raises with the submit button.
 */
module Players {
  import opened Utils
  import opened Printables

  /** The two concrete kinds of player. */
  datatype Kind = Real | Network

  class Player {
    const hand: Hand
    const kind: Kind
    var ready: bool

    /** A new player holds an empty hand and is not ready. */
    constructor (kind: Kind)
      ensures fresh(hand) && hand.tiles == [] && hand.chosen == null
      ensures this.kind == kind
      ensures !IsReady()
    {
      hand := new Hand();
      this.kind := kind;
      ready := false;
    }

    predicate IsRealPlayer()
    {
      kind == Real
    }

    predicate IsReady()
      reads this
    {
      ready
    }

    method Ready()
      modifies this`ready
      ensures IsReady()
    {
      ready := true;
    }

    method NotReady()
      modifies this`ready
      ensures !IsReady()
    {
      ready := false;
    }

    /**
     * The move of this player on `board`. The automatic player returns what
     * the search returns. The person's move is the selected tile, as it is
     * turned now, laid at the selected site, when the board accepts it there.
     */
    method Turn(board: Board) returns (turn: Option<Move>)
      ensures kind == Network ==> SearchResult(hand.tiles, board, turn)
      ensures kind == Network && turn.Some? ==> fresh(turn.value.tile) && turn.value.tile.Valid()
      ensures kind == Network ==> (turn.None? <==> old(Stuck(hand.tiles, board)))
      ensures kind == Real ==>
        (turn.Some? <==> hand.chosen != null && board.IsValidTurn(hand.chosen.State(), None).Accepted?)
      ensures kind == Real && turn.Some? ==>
        && board.chosenArea.Some?
        && turn.value.tile == turn.value.tileFromHand == hand.chosen
        && turn.value.oldTile == board.chosenArea.value.tile
        && turn.value.possibleRect == board.chosenArea.value.rect
        && turn.value.rect == board.IsValidTurn(hand.chosen.State(), None).footprint
    {
      if kind == Network {
        turn := FindPossibleTurn(hand, board);
        SearchFailsIffStuck(hand.tiles, board, turn);
        return;
      }
      var chosen := hand.chosen;
      if chosen == null {
        return None;
      }
      var area := board.chosenArea;
      var v := board.IsValidTurn(chosen.State(), None);
      if v.Accepted? {
        turn := Some(NewTurn(chosen, area.value.tile, v.footprint, area.value.rect, None));
      } else {
        turn := None;
      }
    }
  }

  /**
   * A move of the person, judged at the selected site, is accepted again when
   * judged at the site it names.
   */
  lemma RealTurnIsAccepted(p: Player, board: Board, turn: Option<Move>)
    requires turn.Some?
    requires board.chosenArea.Some? && p.hand.chosen != null
    requires turn.value.tile == p.hand.chosen
    requires turn.value.oldTile == board.chosenArea.value.tile
    requires turn.value.possibleRect == board.chosenArea.value.rect
    requires board.IsValidTurn(p.hand.chosen.State(), None).Accepted?
    ensures board.IsValidTurn(turn.value.tile.State(), Some(Area(turn.value.oldTile, turn.value.possibleRect))).Accepted?
  {
    IsValidTurnUsesChosenArea(board, p.hand.chosen.State());
  }
}

=== FILE: printables.dfy ===
/**
 * The game pieces and the placement rules: tiles and their open placement
 * sites, a player's hand with its selected tile, the board with its legality
 * table and overlap test, and the search for a legal move.
 */
module Printables {
  import opened Utils

  /** Side of one square of a tile (`Tile.SIZE`). */
  const Size: nat := 50
  /** A tile laid horizontally is `TileWidth` by `TileHeight`. */
  const TileWidth: nat := 100
  const TileHeight: nat := 50

  /** `MyRect`: a rectangle tagged with the direction it extends its tile in. */
  datatype Site = Site(dir: Direction, rect: Rect)

  // ---------------------------------------------------------------------
  // Tile state
  // ---------------------------------------------------------------------

  /**
   * What the rules see of a tile: its two ends, its orientation, its
   * rotation angle and whether it is a double.
   */
  datatype Pose = Pose(first: int, second: int, orientation: Orientation, angle: int, double: bool)

  /** A tile as built: horizontal, not turned, a double when its ends agree. */
  function FreshPose(first: int, second: int): (p: Pose)
    ensures WellFormed(p)
    ensures p.orientation == Horizontal && p.angle == 0
  {
    Pose(first, second, Horizontal, 0, first == second)
  }

  /**
   * The consistency every tile keeps: the angle is a quarter turn, the
   * orientation follows from it, and the double flag agrees with the ends.
   */
  predicate WellFormed(p: Pose)
  {
    p.angle in {0, 90, 180, 270} &&
    (p.orientation == Horizontal <==> p.angle in {0, 180}) &&
    p.double == (p.first == p.second)
  }

  /** `q` carries the same two ends as `p`, in either order. */
  predicate SameEnds(p: Pose, q: Pose)
  {
    (q.first == p.first && q.second == p.second) || (q.first == p.second && q.second == p.first)
  }

  /**
   * One quarter turn: the angle moves on by 90, the orientation flips, and
   * the ends trade places when the new angle is 90 or 270.
   */
  function Turned(p: Pose): (q: Pose)
    ensures q.orientation == Flip(p.orientation)
    ensures q.double == p.double
    ensures SameEnds(p, q)
    ensures 0 <= q.angle < 360
    ensures WellFormed(p) ==> WellFormed(q)
  {
    var angle := (p.angle + 90) % 360;
    if angle == 90 || angle == 270 then
      Pose(p.second, p.first, Flip(p.orientation), angle, p.double)
    else
      Pose(p.first, p.second, Flip(p.orientation), angle, p.double)
  }

  /** `n` quarter turns. */
  function Spun(p: Pose, n: nat): (q: Pose)
    ensures q.double == p.double
    ensures SameEnds(p, q)
    ensures q.orientation == (if n % 2 == 0 then p.orientation else Flip(p.orientation))
    ensures WellFormed(p) ==> WellFormed(q)
  {
    if n == 0 then p else Turned(Spun(p, n - 1))
  }

  /**
   * Two quarter turns move the angle on by 180 and swap the ends exactly
   * once when the angle is a quarter turn, never otherwise.
   */
  lemma TwoTurns(p: Pose)
    requires 0 <= p.angle < 360
    ensures var q := Turned(Turned(p));
      && q.orientation == p.orientation && q.double == p.double
      && q.angle == (if p.angle < 180 then p.angle + 180 else p.angle - 180)
      && (if p.angle in {0, 90, 180, 270} then q.first == p.second && q.second == p.first
          else q.first == p.first && q.second == p.second)
  {
    var a := p.angle;
    var q1 := Turned(p);
    if a < 270 {
      assert q1.angle == a + 90;
    } else {
      assert q1.angle == a - 270;
    }
    if q1.angle < 270 {
      assert Turned(q1).angle == q1.angle + 90;
    } else {
      assert Turned(q1).angle == q1.angle - 270;
    }
  }

  lemma SpunUnfold(p: Pose)
    ensures Spun(p, 2) == Turned(Turned(p))
    ensures Spun(p, 4) == Turned(Turned(Turned(Turned(p))))
  {
    assert Spun(p, 1) == Turned(p);
    assert Spun(p, 3) == Turned(Spun(p, 2));
  }

  /** Four quarter turns give back the ends, the orientation and the angle. */
  lemma {:induction false} FourTurnsRestore(p: Pose)
    requires 0 <= p.angle < 360
    ensures Spun(p, 4) == p
  {
    SpunUnfold(p);
    TwoTurns(p);
    var q := Turned(Turned(p));
    TwoTurns(q);
    assert (q.angle in {0, 90, 180, 270}) == (p.angle in {0, 90, 180, 270});
  }

  /** Two quarter turns of a consistent tile leave its ends swapped. */
  lemma {:induction false} TwoTurnsSwapEnds(p: Pose)
    requires WellFormed(p)
    ensures Spun(p, 2).first == p.second && Spun(p, 2).second == p.first
    ensures Spun(p, 2).orientation == p.orientation
    ensures Spun(p, 2).angle == (p.angle + 180) % 360
  {
    SpunUnfold(p);
    TwoTurns(p);
  }

  /** The four poses a tile takes as it is turned a quarter at a time, starting from `p`. */
  function Trials(p: Pose): (ts: seq<Pose>)
    ensures |ts| == 4 && ts[0] == p
    ensures forall n :: 0 <= n < 4 ==> ts[n] == Spun(p, n)
  {
    var p1 := Turned(p);
    var p2 := Turned(p1);
    var p3 := Turned(p2);
    assert Spun(p, 1) == p1 && Spun(p, 2) == p2 && Spun(p, 3) == p3 by {
      assert Spun(p, 0) == p;
    }
    [p, p1, p2, p3]
  }

  /** A tile's rectangle is 100 by 50 when horizontal and 50 by 100 when vertical. */
  predicate Shaped(r: Rect, o: Orientation)
  {
    if o == Horizontal then r.w == TileWidth && r.h == TileHeight
    else r.w == TileHeight && r.h == TileWidth
  }

  /** The 50 by 50 site `_make_rect` builds at (x, y). */
  function MakeRect(x: int, y: int, dir: Direction): Site
  {
    Site(dir, Rect(x, y, TileWidth / 2, TileHeight))
  }

  /** The site lies just beyond the side of `r` its direction names. */
  predicate Adjoins(s: Site, r: Rect)
  {
    match s.dir
    case ToRight => s.rect.x == r.Right()
    case ToLeft => s.rect.Right() == r.x
    case ToTop => s.rect.Bottom() == r.y
    case ToBottom => s.rect.y == r.Bottom()
  }

  /** The sites `make_possible_placements` opens around a tile at `r`. */
  function PlacementsFor(r: Rect, o: Orientation, double: bool): (ps: seq<Site>)
    ensures |ps| == if double then 4 else 2
    ensures o == Horizontal ==> ps[0].dir == ToRight && ps[1].dir == ToLeft
    ensures o == Vertical ==> ps[0].dir == ToTop && ps[1].dir == ToBottom
    ensures double && o == Horizontal ==> ps[2].dir == ToTop && ps[3].dir == ToBottom
    ensures double && o == Vertical ==> ps[2].dir == ToRight && ps[3].dir == ToLeft
    ensures forall i, j :: 0 <= i < j < |ps| ==> ps[i].dir != ps[j].dir
    ensures forall i :: 0 <= i < |ps| ==> ps[i].rect.w == Size && ps[i].rect.h == Size
    ensures forall i :: 0 <= i < |ps| ==> Adjoins(ps[i], r) && !Colliderect(ps[i].rect, r)
    ensures forall i :: 0 <= i < 2 ==>
      if o == Horizontal then ps[i].rect.y == r.y else ps[i].rect.x == r.x
    ensures forall i :: 2 <= i < |ps| ==>
      if o == Horizontal then ps[i].rect.x == r.x + Size / 2 else ps[i].rect.y == r.y + Size / 2
  {
    if o == Horizontal then
      [MakeRect(r.Right(), r.y, ToRight), MakeRect(r.x - Size, r.y, ToLeft)] +
      (if double then [MakeRect(r.x + Size / 2, r.y - TileHeight, ToTop),
                       MakeRect(r.x + Size / 2, r.Bottom(), ToBottom)]
       else [])
    else
      [MakeRect(r.x, r.y - TileHeight, ToTop), MakeRect(r.x, r.Bottom(), ToBottom)] +
      (if double then [MakeRect(r.Right(), r.y + Size / 2, ToRight),
                       MakeRect(r.x - Size, r.y + Size / 2, ToLeft)]
       else [])
  }

  /** The sites of `sites` whose direction is not in `drop`, in their order. */
  function Filtered(sites: seq<Site>, drop: set<Direction>): (r: seq<Site>)
    ensures |r| <= |sites|
    ensures forall s {:trigger s in r} :: s in r <==> s in sites && s.dir !in drop
  {
    if sites == [] then []
    else (if sites[0].dir in drop then [] else [sites[0]]) + Filtered(sites[1..], drop)
  }

  /** Filtering works piece by piece, so the kept sites stay in order. */
  lemma {:induction false} FilteredAppend(a: seq<Site>, b: seq<Site>, drop: set<Direction>)
    ensures Filtered(a + b, drop) == Filtered(a, drop) + Filtered(b, drop)
  {
    if a != [] {
      assert (a + b)[1..] == a[1..] + b;
      FilteredAppend(a[1..], b, drop);
    } else {
      assert a + b == b;
    }
  }

  /** A filter that drops nothing present keeps the list as it is. */
  lemma {:induction false} FilteredKeepsUntouched(sites: seq<Site>, drop: set<Direction>)
    requires forall s :: s in sites ==> s.dir !in drop
    ensures Filtered(sites, drop) == sites
  {
    if sites != [] {
      FilteredKeepsUntouched(sites[1..], drop);
    }
  }

  /** Filtering twice by the same directions changes nothing more. */
  lemma FilteredIdempotent(sites: seq<Site>, drop: set<Direction>)
    ensures Filtered(Filtered(sites, drop), drop) == Filtered(sites, drop)
  {
    FilteredKeepsUntouched(Filtered(sites, drop), drop);
  }

  /**
   * The directions `remove_possible_placements_by_dir` drops: `discard`
   * itself and the reverse of `discardReversed`; an absent argument drops
   * nothing.
   */
  function Discarded(discard: Option<Direction>, discardReversed: Option<Direction>): (d: set<Direction>)
    ensures forall x :: x in d <==> Some(x) == discard ||
                                    (discardReversed.Some? && x == Reverse(discardReversed.value))
  {
    (if discard.Some? then {discard.value} else {}) +
    (if discardReversed.Some? then {Reverse(discardReversed.value)} else {})
  }

  /**
   * The index of the first site whose rectangle equals `r` (pygame compares
   * rectangles by position and size only, so the direction plays no part),
   * or -1 when there is none.
   */
  function FirstWithRect(sites: seq<Site>, r: Rect): (i: int)
    ensures -1 <= i < |sites|
    ensures i == -1 <==> forall k :: 0 <= k < |sites| ==> sites[k].rect != r
    ensures 0 <= i ==> sites[i].rect == r && forall k :: 0 <= k < i ==> sites[k].rect != r
  {
    if sites == [] then -1
    else if sites[0].rect == r then 0
    else
      var j := FirstWithRect(sites[1..], r);
      if j == -1 then -1 else j + 1
  }

  /** `sites` without its first site whose rectangle equals `r`, if any. */
  function RemoveFirstRect(sites: seq<Site>, r: Rect): (out: seq<Site>)
    ensures (forall k :: 0 <= k < |sites| ==> sites[k].rect != r) ==> out == sites
    ensures (exists k :: 0 <= k < |sites| && sites[k].rect == r) ==> |out| == |sites| - 1
    ensures multiset(out) <= multiset(sites)
    ensures (exists k :: 0 <= k < |sites| && sites[k].rect == r) ==>
              exists i :: 0 <= i < |sites| && sites[i].rect == r &&
                (forall k :: 0 <= k < i ==> sites[k].rect != r) &&
                out == sites[..i] + sites[i + 1..]
  {
    var i := FirstWithRect(sites, r);
    if i == -1 then sites
    else
      assert sites == sites[..i] + [sites[i]] + sites[i + 1..];
      sites[..i] + sites[i + 1..]
  }

  /** A domino piece laid on the board or held in a hand. */
  class Tile {
    var first: int
    var second: int
    var orientation: Orientation
    var angle: int
    const double: bool
    var rect: Rect
    var placements: seq<Site>

    function State(): Pose
      reads this
    {
      Pose(first, second, orientation, angle, double)
    }

    ghost predicate Valid()
      reads this
    {
      WellFormed(State()) && Shaped(rect, orientation)
    }

    /** A new tile: horizontal, at the origin, with no open sites yet. */
    constructor (first: int, second: int)
      ensures State() == FreshPose(first, second)
      ensures rect == Rect(0, 0, TileWidth, TileHeight)
      ensures placements == []
      ensures Valid()
    {
      this.first := first;
      this.second := second;
      orientation := Horizontal;
      angle := 0;
      double := first == second;
      rect := Rect(0, 0, TileWidth, TileHeight);
      placements := [];
    }

    /**
     * A quarter turn: the ends, orientation and angle move as `Turned` says,
     * and the rectangle keeps its corner and swaps width and height. The open
     * sites are left as they were.
     */
    method Rotate()
      modifies this
      ensures State() == Turned(old(State()))
      ensures rect == Rect(old(rect.x), old(rect.y), old(rect.h), old(rect.w))
      ensures placements == old(placements)
      ensures old(Valid()) ==> Valid()
    {
      angle := (angle + 90) % 360;
      rect := Rect(rect.x, rect.y, rect.h, rect.w);
      if angle == 90 || angle == 270 {
        first, second := second, first;
      }
      orientation := Flip(orientation);
    }

    method SetPosition(x: int, y: int)
      modifies this`rect
      ensures rect == Rect(x, y, old(rect.w), old(rect.h))
    {
      rect := Rect(x, y, rect.w, rect.h);
    }

    method MakePossiblePlacements()
      modifies this`placements
      ensures placements == PlacementsFor(rect, orientation, double)
    {
      placements := PlacementsFor(rect, orientation, double);
    }

    method RemovePossiblePlacementsByDir(discard: Option<Direction>, discardReversed: Option<Direction>)
      modifies this`placements
      ensures placements == Filtered(old(placements), Discarded(discard, discardReversed))
    {
      placements := Filtered(placements, Discarded(discard, discardReversed));
    }

    method RemovePossiblePlacement(p: Site)
      modifies this`placements
      ensures placements == RemoveFirstRect(old(placements), p.rect)
    {
      placements := RemoveFirstRect(placements, p.rect);
    }
  }

  // ---------------------------------------------------------------------
  // Hand
  // ---------------------------------------------------------------------

  /** `s` without any occurrence of `x`, the rest in order. */
  function Without<T(==)>(s: seq<T>, x: T): (r: seq<T>)
    ensures forall k :: 0 <= k < |r| ==> r[k] in s && r[k] != x
    ensures forall k :: 0 <= k < |s| && s[k] != x ==> s[k] in r
    ensures |r| <= |s|
    ensures x in s ==> |r| < |s|
  {
    if s == [] then []
    else (if s[0] == x then [] else [s[0]]) + Without(s[1..], x)
  }

  /** Removing a tile that occurs once shortens the sequence by exactly one. */
  lemma {:induction false} WithoutUnique<T>(s: seq<T>, x: T)
    requires forall i, j :: 0 <= i < j < |s| ==> s[i] != s[j]
    requires x in s
    ensures |Without(s, x)| == |s| - 1
  {
    if s[0] == x {
      assert x !in s[1..];
      WithoutAbsent(s[1..], x);
    } else {
      WithoutUnique(s[1..], x);
    }
  }

  /**
   * Removal keeps the order of what stays: removing from `s` and then one
   * more element is removing from `s` and appending that element unless it
   * is the one removed.
   */
  lemma {:induction false} WithoutAppend<T>(s: seq<T>, y: T, x: T)
    ensures Without(s + [y], x) == Without(s, x) + (if y == x then [] else [y])
  {
    if s == [] {
      assert s + [y] == [y];
    } else {
      assert (s + [y])[0] == s[0];
      assert (s + [y])[1..] == s[1..] + [y];
      WithoutAppend(s[1..], y, x);
    }
  }

  lemma {:induction false} WithoutAbsent<T>(s: seq<T>, x: T)
    requires x !in s
    ensures Without(s, x) == s
  {
    if s != [] {
      WithoutAbsent(s[1..], x);
    }
  }

  /** A player's tiles, plus the one tile the player has selected, if any. */
  class Hand {
    var tiles: seq<Tile>
    var chosen: Tile?

    constructor ()
      ensures tiles == [] && chosen == null
    {
      tiles := [];
      chosen := null;
    }

    /** A tile group holds each tile once: adding a held tile changes nothing. */
    method AddTile(tile: Tile)
      modifies this`tiles
      ensures tiles == if tile in old(tiles) then old(tiles) else old(tiles) + [tile]
    {
      if tile !in tiles {
        tiles := tiles + [tile];
      }
    }

    method RemoveTile(tile: Tile)
      modifies this
      ensures tiles == Without(old(tiles), tile)
      ensures chosen == if old(chosen) == tile then null else old(chosen)
      ensures tile !in tiles
      ensures forall t :: t in old(tiles) && t != tile ==> t in tiles
      ensures old(chosen) != null && old(chosen) in old(tiles) ==>
                chosen == null || chosen in tiles
    {
      if chosen == tile {
        chosen := null;
      }
      tiles := Without(tiles, tile);
    }

    /** Selecting toggles: the selected tile deselects, another tile replaces it. */
    method ChoseTile(tile: Tile)
      modifies this`chosen
      ensures chosen == if old(chosen) == tile then null else tile
    {
      if tile == chosen {
        chosen := null;
      } else {
        chosen := tile;
      }
    }

    /** The selected tile, if any, makes one quarter turn in place (see `Tile.Rotate`). */
    method RotateChosenTile()
      modifies chosen
      ensures chosen != null ==> chosen.State() == Turned(old(chosen.State()))
      ensures chosen != null ==>
                chosen.rect == Rect(old(chosen.rect.x), old(chosen.rect.y), old(chosen.rect.h), old(chosen.rect.w))
      ensures chosen != null ==> chosen.placements == old(chosen.placements)
      ensures chosen != null && old(chosen.Valid()) ==> chosen.Valid()
    {
      if chosen != null {
        chosen.Rotate();
      }
    }
  }

  // ---------------------------------------------------------------------
  // Board
  // ---------------------------------------------------------------------

  /** A placed tile together with one of its open sites. */
  datatype Area = Area(tile: Tile, rect: Site)

  /**
   * What `is_valid_turn` answers: `False` (no site to judge, or the footprint
   * would touch another tile), `None` (no rule of the table matches) or the
   * footprint tagged with the site's direction.
   */
  datatype Verdict = Refused | NoRule | Accepted(footprint: Site)

  /** The double is laid along the direction of extension instead of across it. */
  predicate Parallel(o: Orientation, d: Direction)
  {
    if o == Horizontal then d in {ToRight, ToLeft} else d in {ToTop, ToBottom}
  }

  /**
   * For two tiles laid the same way, the anchor's end facing the site equals
   * the new tile's end facing back.
   */
  predicate FacingEndsMatch(anchor: Pose, tile: Pose, d: Direction)
  {
    if d in {ToRight, ToBottom} then anchor.second == tile.first else anchor.first == tile.second
  }

  /** The footprint of a tile laid horizontally next to a horizontal anchor. */
  function FootprintHorizontal(anchor: Pose, tile: Pose, site: Site): Option<Rect>
  {
    var x, y, d := site.rect.x, site.rect.y, site.dir;
    if tile.orientation == Horizontal then
      if d == ToRight && anchor.second == tile.first then Some(Rect(x, y, Size * 2, Size))
      else if d == ToLeft && anchor.first == tile.second then Some(Rect(x - Size, y, Size * 2, Size))
      else None
    else if tile.double then
      if (d == ToRight && anchor.second == tile.first) || (d == ToLeft && anchor.first == tile.second)
      then Some(Rect(x, y - Size / 2, Size, Size * 2))
      else None
    else if !anchor.double then None
    else if d == ToTop && anchor.second == tile.second then Some(Rect(x, y - Size, Size, TileHeight * 2))
    // laid below a horizontal double, a vertical tile gets a horizontal footprint
    else if d == ToBottom && anchor.first == tile.first then Some(Rect(x, y, Size * 2, Size))
    else None
  }

  /** The footprint of a tile laid next to a vertical anchor. */
  function FootprintVertical(anchor: Pose, tile: Pose, site: Site): Option<Rect>
  {
    var x, y, d := site.rect.x, site.rect.y, site.dir;
    if tile.orientation == Vertical then
      if d == ToTop && anchor.first == tile.second then Some(Rect(x, y - Size, Size, Size * 2))
      else if d == ToBottom && anchor.second == tile.first then Some(Rect(x, y, Size, Size * 2))
      else None
    else if tile.double then
      if (d == ToTop && anchor.first == tile.second) || (d == ToBottom && anchor.second == tile.first)
      then Some(Rect(x - Size / 2, y, Size * 2, Size))
      else None
    else if !anchor.double then None
    else if d == ToRight && anchor.first == tile.first then Some(Rect(x, y, Size * 2, Size))
    else if d == ToLeft && anchor.first == tile.second then Some(Rect(x - Size, y, Size * 2, Size))
    else None
  }

  /**
   * The legality table of `is_valid_turn`: the rectangle a tile laid at
   * `site` of `anchor` would cover, or None when no rule allows it.
   */
  function Footprint(anchor: Pose, tile: Pose, site: Site): (r: Option<Rect>)
    // a double is laid across the direction of extension, never along it
    ensures tile.double && Parallel(tile.orientation, site.dir) ==> r.None?
    ensures tile.double && r.Some? ==> anchor.orientation != tile.orientation
    // tiles laid the same way extend along their axis and match facing ends
    ensures r.Some? && anchor.orientation == tile.orientation ==>
      Parallel(anchor.orientation, site.dir) && FacingEndsMatch(anchor, tile, site.dir)
    // a plain tile is laid across only against a double
    ensures r.Some? && anchor.orientation != tile.orientation && !tile.double ==> anchor.double
    // a footprint is one tile, lying either way, and covers the site
    ensures r.Some? ==> (r.value.w, r.value.h) in {(Size * 2, Size), (Size, Size * 2)}
    ensures r.Some? && site.rect.w == Size && site.rect.h == Size ==> Contains(r.value, site.rect)
  {
    if tile.double && Parallel(tile.orientation, site.dir) then None
    else if anchor.orientation == Horizontal then FootprintHorizontal(anchor, tile, site)
    else FootprintVertical(anchor, tile, site)
  }

  /** The table for tiles laid the same way as their anchor, stated case by case. */
  lemma SameOrientationTable(anchor: Pose, tile: Pose, site: Site)
    requires anchor.orientation == tile.orientation && !tile.double
    ensures var x, y := site.rect.x, site.rect.y;
      Footprint(anchor, tile, site) ==
        if anchor.orientation == Horizontal then
          if site.dir == ToRight && anchor.second == tile.first then Some(Rect(x, y, 100, 50))
          else if site.dir == ToLeft && anchor.first == tile.second then Some(Rect(x - 50, y, 100, 50))
          else None
        else
          if site.dir == ToTop && anchor.first == tile.second then Some(Rect(x, y - 50, 50, 100))
          else if site.dir == ToBottom && anchor.second == tile.first then Some(Rect(x, y, 50, 100))
          else None
  {
  }

  /** A plain tile laid across a plain anchor is never allowed. */
  lemma CrossNeedsDoubleAnchor(anchor: Pose, tile: Pose, site: Site)
    requires anchor.orientation != tile.orientation && !tile.double && !anchor.double
    ensures Footprint(anchor, tile, site).None?
  {
  }

  /** The rectangles of `ts`, in order, leaving out the tile `except`. */
  function RectsExcept(ts: seq<Tile>, except: Tile): (rs: seq<Rect>)
    reads ts
    ensures |rs| <= |ts|
    ensures except !in ts ==> |rs| == |ts|
  {
    if ts == [] then []
    else (if ts[0] == except then [] else [ts[0].rect]) + RectsExcept(ts[1..], except)
  }

  /** Some rectangle of `rs` collides with `r`. */
  predicate CollidesAny(r: Rect, rs: seq<Rect>)
  {
    exists m :: 0 <= m < |rs| && Colliderect(r, rs[m])
  }

  lemma CollidesAnyAppend(r: Rect, a: seq<Rect>, b: seq<Rect>)
    ensures CollidesAny(r, a + b) <==> CollidesAny(r, a) || CollidesAny(r, b)
  {
    var ab := a + b;
    if CollidesAny(r, ab) {
      var m :| 0 <= m < |ab| && Colliderect(r, ab[m]);
      if m >= |a| {
        assert ab[m] == b[m - |a|];
      }
    }
    if CollidesAny(r, a) {
      var m :| 0 <= m < |a| && Colliderect(r, a[m]);
      assert ab[m] == a[m];
    }
    if CollidesAny(r, b) {
      var m :| 0 <= m < |b| && Colliderect(r, b[m]);
      assert ab[|a| + m] == b[m];
    }
  }

  /**
   * `collidelist` over the rectangles of every tile but `except` finds one
   * exactly when some tile other than `except` collides with `r`.
   */
  lemma {:induction false} CollideListFindsOtherTile(r: Rect, ts: seq<Tile>, except: Tile)
    ensures CollideList(r, RectsExcept(ts, except)) != -1 <==>
            exists k :: 0 <= k < |ts| && ts[k] != except && Colliderect(r, ts[k].rect)
  {
    if ts == [] {
    } else {
      var head: seq<Rect> := if ts[0] == except then [] else [ts[0].rect];
      CollidesAnyAppend(r, head, RectsExcept(ts[1..], except));
      CollideListFindsOtherTile(r, ts[1..], except);
      if exists k :: 1 <= k < |ts| && ts[k] != except && Colliderect(r, ts[k].rect) {
        var k :| 1 <= k < |ts| && ts[k] != except && Colliderect(r, ts[k].rect);
        assert ts[1..][k - 1] == ts[k];
      }
      if exists k :: 0 <= k < |ts[1..]| && ts[1..][k] != except && Colliderect(r, ts[1..][k].rect) {
        var k :| 0 <= k < |ts[1..]| && ts[1..][k] != except && Colliderect(r, ts[1..][k].rect);
        assert ts[k + 1] == ts[1..][k];
      }
      if CollidesAny(r, head) {
        assert head[0] == ts[0].rect;
      }
    }
  }

  /** The layout: placed tiles, each owning its open sites, and the selected site. */
  class Board {
    var tiles: seq<Tile>
    var chosenArea: Option<Area>

    constructor ()
      ensures tiles == [] && chosenArea == None
    {
      tiles := [];
      chosenArea := None;
    }

    method ChoseArea(tile: Tile, rect: Site)
      modifies this`chosenArea
      ensures chosenArea == Some(Area(tile, rect))
    {
      chosenArea := Some(Area(tile, rect));
    }

    method ClearArea()
      modifies this`chosenArea
      ensures chosenArea == None
    {
      chosenArea := None;
    }

    /**
     * Whether `r`, grown by one unit on every side, overlaps a placed tile
     * other than `except`. Because of the growth, a tile that only touches
     * `r` along an edge or at a corner counts as well (`TouchingIsOverlap`).
     */
    function IntersectsAnything(r: Rect, except: Tile): (b: bool)
      reads this, tiles
      ensures b <==> exists k :: 0 <= k < |tiles| && tiles[k] != except &&
                                 Colliderect(Inflated(r), tiles[k].rect)
    {
      CollideListFindsOtherTile(Inflated(r), tiles, except);
      CollideList(Inflated(r), RectsExcept(tiles, except)) != -1
    }

    /**
     * `is_valid_turn`: judges laying a tile in pose `tileToPlace` at the given
     * area, or at the selected one when none is given.
     */
    function IsValidTurn(tileToPlace: Pose, area: Option<Area>): (v: Verdict)
      reads this, tiles
      reads if area.Some? then {area.value.tile} else if chosenArea.Some? then {chosenArea.value.tile} else {}
      ensures area.None? && chosenArea.None? ==> v == Refused
    {
      var a := if area.Some? then area else chosenArea;
      if a.None? then Refused
      else
        match Footprint(a.value.tile.State(), tileToPlace, a.value.rect)
        case None => NoRule
        case Some(r) =>
          if IntersectsAnything(r, a.value.tile) then Refused
          else Accepted(Site(a.value.rect.dir, r))
    }

    /**
     * `place_tile`: lays `tile` at (x, y) without judging it. The anchor
     * loses its sites in the direction used, the new tile opens its own sites
     * and loses the one pointing back at the anchor.
     */
    method PlaceTile(tile: Tile, nextTo: Tile?, site: Option<Site>, x: int, y: int)
      requires nextTo != null ==> site.Some?
      modifies this, tile, nextTo
      ensures chosenArea.None?
      ensures tiles == if tile in old(tiles) then old(tiles) else old(tiles) + [tile]
      ensures tile.rect == Rect(x, y, old(tile.rect.w), old(tile.rect.h))
      ensures tile.State() == old(tile.State())
      ensures site.None? ==> tile.placements == PlacementsFor(tile.rect, tile.orientation, tile.double)
      ensures site.Some? ==>
        tile.placements == Filtered(PlacementsFor(tile.rect, tile.orientation, tile.double), {Reverse(site.value.dir)})
      ensures nextTo != null && nextTo != tile ==>
        && nextTo.placements == Filtered(old(nextTo.placements), {site.value.dir})
        && nextTo.State() == old(nextTo.State())
        && nextTo.rect == old(nextTo.rect)
      ensures old(tile.Valid()) ==> tile.Valid()
    {
      chosenArea := None;
      if nextTo != null {
        nextTo.RemovePossiblePlacementsByDir(Some(site.value.dir), None);
        assert Discarded(Some(site.value.dir), None) == {site.value.dir};
      }
      if tile !in tiles {
        tiles := tiles + [tile];
      }
      tile.SetPosition(x, y);
      tile.MakePossiblePlacements();
      if site.Some? {
        tile.RemovePossiblePlacementsByDir(None, Some(site.value.dir));
        assert Discarded(None, Some(site.value.dir)) == {Reverse(site.value.dir)};
      }
    }
  }

  /**
   * What `is_valid_turn` decides at an area: no rule for the footprint, or
   * refused because the footprint, grown by one unit, overlaps another placed
   * tile, or accepted with the footprint tagged with the site's direction; an
   * accepted footprint collides with no placed tile but the anchor.
   */
  lemma IsValidTurnVerdict(board: Board, tileToPlace: Pose, area: Area)
    ensures var v := board.IsValidTurn(tileToPlace, Some(area));
      var fp := Footprint(area.tile.State(), tileToPlace, area.rect);
      && (v == NoRule <==> fp.None?)
      && (v == Refused <==>
            (fp.Some? &&
             exists k :: 0 <= k < |board.tiles| && board.tiles[k] != area.tile &&
                         Colliderect(Inflated(fp.value), board.tiles[k].rect)))
      && (v.Accepted? ==> v.footprint == Site(area.rect.dir, fp.value))
      && (v.Accepted? ==>
            forall k :: 0 <= k < |board.tiles| && board.tiles[k] != area.tile ==>
              !Colliderect(Inflated(v.footprint.rect), board.tiles[k].rect))
  {
  }

  /**
   * A placed tile other than the anchor that touches the footprint, even
   * only along an edge or at a corner, makes the board refuse the move.
   */
  lemma TouchingTileRefuses(board: Board, tileToPlace: Pose, area: Area, k: int)
    requires Footprint(area.tile.State(), tileToPlace, area.rect).Some?
    requires 0 <= k < |board.tiles| && board.tiles[k] != area.tile
    requires board.tiles[k].rect.w != 0 && board.tiles[k].rect.h != 0
    requires Touches(Footprint(area.tile.State(), tileToPlace, area.rect).value, board.tiles[k].rect)
    ensures board.IsValidTurn(tileToPlace, Some(area)) == Refused
  {
    var fp := Footprint(area.tile.State(), tileToPlace, area.rect).value;
    TouchingIsOverlap(fp, board.tiles[k].rect);
    IsValidTurnVerdict(board, tileToPlace, area);
  }

  /** With no area given, `is_valid_turn` judges the selected one. */
  lemma IsValidTurnUsesChosenArea(board: Board, tileToPlace: Pose)
    requires board.chosenArea.Some?
    ensures board.IsValidTurn(tileToPlace, None) == board.IsValidTurn(tileToPlace, board.chosenArea)
  {
  }

  /** After `place_tile` the anchor has no open site left in the direction used. */
  lemma AnchorClosesUsedDirection(sites: seq<Site>, d: Direction)
    ensures forall s :: s in Filtered(sites, {d}) ==> s.dir != d
    ensures forall s :: s in sites && s.dir != d ==> s in Filtered(sites, {d})
  {
  }

  /** A newly placed plain tile keeps exactly the one site facing away from its anchor. */
  lemma {:induction false} NewTileKeepsFarSite(r: Rect, o: Orientation, d: Direction)
    requires Parallel(o, d)
    ensures var ps := PlacementsFor(r, o, false);
      Filtered(ps, {Reverse(d)}) == [if ps[0].dir == d then ps[0] else ps[1]]
  {
    var ps := PlacementsFor(r, o, false);
    assert ps == [ps[0]] + [ps[1]];
    FilteredAppend([ps[0]], [ps[1]], {Reverse(d)});
  }

  // ---------------------------------------------------------------------
  // Move search
  // ---------------------------------------------------------------------

  type Move = Turn<Tile, Site>

  /** The pose of a fresh copy of hand tile `t` after `r` quarter turns. */
  function Candidate(t: Tile, r: nat): (p: Pose)
    requires r < 4
    reads t
    ensures WellFormed(p)
    ensures SameEnds(FreshPose(t.first, t.second), p)
  {
    Trials(FreshPose(t.first, t.second))[r]
  }

  /** Laying a tile in pose `p` at site `k` of placed tile `j` is accepted. */
  ghost predicate Hit(board: Board, p: Pose, j: int, k: int)
    reads board, board.tiles
  {
    0 <= j < |board.tiles| && 0 <= k < |board.tiles[j].placements| &&
    board.IsValidTurn(p, Some(Area(board.tiles[j], board.tiles[j].placements[k]))).Accepted?
  }

  /** Hand tile `i`, turned `r` times, may be laid at site `k` of placed tile `j`. */
  ghost predicate HandHit(hand: seq<Tile>, board: Board, i: int, r: int, j: int, k: int)
    reads hand, board, board.tiles
  {
    0 <= i < |hand| && 0 <= r < 4 && Hit(board, Candidate(hand[i], r), j, k)
  }

  /** (i, r, j, k) is the first hit in the search order: hand tile, turn, placed tile, site. */
  ghost predicate FirstHit(hand: seq<Tile>, board: Board, i: int, r: int, j: int, k: int)
    reads hand, board, board.tiles
  {
    && HandHit(hand, board, i, r, j, k)
    && (forall i', r', j', k' :: 0 <= i' < i ==> !HandHit(hand, board, i', r', j', k'))
    && (forall r', j', k' :: 0 <= r' < r ==> !HandHit(hand, board, i, r', j', k'))
    && (forall j', k' :: 0 <= j' < j ==> !HandHit(hand, board, i, r, j', k'))
    && (forall k' :: 0 <= k' < k ==> !HandHit(hand, board, i, r, j, k'))
  }

  /** `turn` lays hand tile `i`, turned `r` times, at site `k` of placed tile `j`. */
  ghost predicate Describes(turn: Move, hand: seq<Tile>, board: Board, i: int, r: int, j: int, k: int)
    reads hand, board, board.tiles, turn.tile
    requires HandHit(hand, board, i, r, j, k)
  {
    var site := board.tiles[j].placements[k];
    && turn.tileFromHand == hand[i]
    && turn.oldTile == board.tiles[j]
    && turn.possibleRect == site
    && turn.tile.State() == Candidate(hand[i], r)
    && turn.rect == board.IsValidTurn(Candidate(hand[i], r), Some(Area(board.tiles[j], site))).footprint
  }

  /**
   * What `find_possible_turn` promises: no move exactly when no hand tile,
   * turned any number of times, fits any open site; otherwise the move found
   * first in search order.
   */
  ghost predicate SearchResult(hand: seq<Tile>, board: Board, result: Option<Move>)
    reads hand, board, board.tiles, if result.Some? then {result.value.tile} else {}
  {
    && (result.None? <==> forall i, r, j, k :: !HandHit(hand, board, i, r, j, k))
    && (result.Some? ==> exists i, r, j, k :: FirstHit(hand, board, i, r, j, k) &&
                                           Describes(result.value, hand, board, i, r, j, k))
  }

  /** No tile of `hand`, turned any number of times, fits any open site of `board`. */
  ghost predicate Stuck(hand: seq<Tile>, board: Board)
    reads hand, board, board.tiles
  {
    forall i, r, j, k :: !HandHit(hand, board, i, r, j, k)
  }

  /** The search finds nothing exactly when the hand is stuck. */
  lemma SearchFailsIffStuck(hand: seq<Tile>, board: Board, result: Option<Move>)
    requires SearchResult(hand, board, result)
    ensures result.None? <==> Stuck(hand, board)
  {
    if result.Some? {
      var i, r, j, k :| FirstHit(hand, board, i, r, j, k) && Describes(result.value, hand, board, i, r, j, k);
      assert HandHit(hand, board, i, r, j, k);
    }
  }

  /** The search finds nothing in an empty hand. */
  lemma EmptyHandHasNoTurn(board: Board, result: Option<Move>)
    requires SearchResult([], board, result)
    ensures result.None?
  {
  }

  /** Whatever fits, the search finds a move (exhaustiveness). */
  lemma SearchIsExhaustive(hand: seq<Tile>, board: Board, result: Option<Move>, i: int, r: int, j: int, k: int)
    requires SearchResult(hand, board, result)
    requires HandHit(hand, board, i, r, j, k)
    ensures result.Some?
  {
  }

  /** A move found is accepted by the board at the site it names (soundness). */
  lemma SearchIsSound(hand: seq<Tile>, board: Board, result: Option<Move>)
    requires SearchResult(hand, board, result)
    requires result.Some?
    ensures var t := result.value;
      t.tileFromHand in hand && t.oldTile in board.tiles &&
      t.possibleRect in t.oldTile.placements &&
      board.IsValidTurn(t.tile.State(), Some(Area(t.oldTile, t.possibleRect))) == Accepted(t.rect)
  {
    var i, r, j, k :| FirstHit(hand, board, i, r, j, k) && Describes(result.value, hand, board, i, r, j, k);
  }

  /** (j, k) is the first open site, in board order, that accepts pose `p`. */
  ghost predicate FirstSite(board: Board, p: Pose, j: int, k: int)
    reads board, board.tiles
  {
    && Hit(board, p, j, k)
    && (forall j', k' :: 0 <= j' < j ==> !Hit(board, p, j', k'))
    && (forall k' :: 0 <= k' < k ==> !Hit(board, p, j, k'))
  }

  /**
   * The two inner loops of `find_possible_turn`: every open site of every
   * placed tile, in board order, until one accepts a tile in pose `p`; the
   * site's indices come back with the footprint the board gave.
   */
  method FindSite(board: Board, p: Pose) returns (found: Option<(nat, nat, Site)>)
    ensures found.None? <==> forall j, k :: !Hit(board, p, j, k)
    ensures found.Some? ==>
      var (j, k, footprint) := found.value;
      && FirstSite(board, p, j, k)
      && board.IsValidTurn(p, Some(Area(board.tiles[j], board.tiles[j].placements[k]))) == Accepted(footprint)
  {
    for j := 0 to |board.tiles|
      invariant forall j', k :: 0 <= j' < j ==> !Hit(board, p, j', k)
    {
      var boardTile := board.tiles[j];
      for k := 0 to |boardTile.placements|
        invariant forall k' :: 0 <= k' < k ==> !Hit(board, p, j, k')
      {
        var v := board.IsValidTurn(p, Some(Area(boardTile, boardTile.placements[k])));
        if v.Accepted? {
          found := Some((j, k, v.footprint));
          assert Hit(board, p, j, k);
          return;
        }
      }
    }
    found := None;
  }

  /** No pose of `poses` fits any open site of the board. */
  ghost predicate Misses(board: Board, poses: seq<Pose>)
    reads board, board.tiles
  {
    forall n, j, k :: 0 <= n < |poses| ==> !Hit(board, poses[n], j, k)
  }

  lemma MissesAppend(board: Board, poses: seq<Pose>, p: Pose)
    requires Misses(board, poses)
    requires forall j, k :: !Hit(board, p, j, k)
    ensures Misses(board, poses + [p])
  {
    var ps := poses + [p];
    forall n, j, k | 0 <= n < |ps|
      ensures !Hit(board, ps[n], j, k)
    {
      if n < |poses| {
        assert ps[n] == poses[n];
      }
    }
  }

  lemma NextTrialMisses(board: Board, trials: seq<Pose>, r: nat)
    requires r < |trials|
    requires Misses(board, trials[..r])
    requires forall j, k :: !Hit(board, trials[r], j, k)
    ensures Misses(board, trials[..r + 1])
  {
    MissesAppend(board, trials[..r], trials[r]);
    assert trials[..r] + [trials[r]] == trials[..r + 1];
  }

  /** (r, j, k) is the first hit, in search order, for quarter turns of `start`. */
  ghost predicate FirstTurn(board: Board, start: Pose, r: int, j: int, k: int)
    reads board, board.tiles
  {
    && 0 <= r < 4
    && FirstSite(board, Trials(start)[r], j, k)
    && Misses(board, Trials(start)[..r])
  }

  /**
   * The middle loop of `find_possible_turn`: a fresh copy of a hand tile,
   * turned a quarter at a time, tried at every open site; the copy comes back
   * in the pose that fits.
   */
  method FindTurn(board: Board, first: int, second: int) returns (found: Option<(nat, nat, nat, Site)>, rotated: Tile)
    ensures fresh(rotated) && rotated.Valid()
    ensures found.None? <==> Misses(board, Trials(FreshPose(first, second)))
    ensures found.Some? ==>
      var (r, j, k, footprint) := found.value;
      && FirstTurn(board, FreshPose(first, second), r, j, k)
      && rotated.State() == Trials(FreshPose(first, second))[r]
      && board.IsValidTurn(rotated.State(), Some(Area(board.tiles[j], board.tiles[j].placements[k]))) == Accepted(footprint)
  {
    rotated := new Tile(first, second);
    ghost var trials := Trials(FreshPose(first, second));
    for r := 0 to 4
      invariant r < 4 ==> rotated.State() == trials[r]
      invariant Misses(board, trials[..r])
      invariant rotated !in board.tiles
      invariant rotated.Valid()
    {
      var site := FindSite(board, rotated.State());
      if site.Some? {
        var (j, k, footprint) := site.value;
        found := Some((r, j, k, footprint));
        return;
      }
      NextTrialMisses(board, trials, r);
      rotated.Rotate();
    }
    assert trials[..4] == trials;
    found := None;
  }

  /** No pose of any of the first `n` hand tiles fits anywhere on the board. */
  ghost predicate HandMisses(hand: seq<Tile>, board: Board, n: int)
    requires n <= |hand|
    reads hand, board, board.tiles
  {
    forall i :: 0 <= i < n ==> Misses(board, Trials(FreshPose(hand[i].first, hand[i].second)))
  }

  lemma HandMissesExtend(hand: seq<Tile>, board: Board, n: int)
    requires 0 <= n < |hand|
    requires HandMisses(hand, board, n)
    requires Misses(board, Trials(FreshPose(hand[n].first, hand[n].second)))
    ensures HandMisses(hand, board, n + 1)
  {
  }

  /** The first hit of hand tile `i`, when no earlier hand tile fits, is the first hit of the hand. */
  lemma FirstTurnIsFirstHit(hand: seq<Tile>, board: Board, i: int, r: int, j: int, k: int)
    requires 0 <= i < |hand|
    requires HandMisses(hand, board, i)
    requires FirstTurn(board, FreshPose(hand[i].first, hand[i].second), r, j, k)
    ensures FirstHit(hand, board, i, r, j, k)
  {
    var trials := Trials(FreshPose(hand[i].first, hand[i].second));
    forall r', j', k' | 0 <= r' < r
      ensures !HandHit(hand, board, i, r', j', k')
    {
      assert trials[..r][r'] == trials[r'];
    }
  }

  /** The first hit, described by a move, makes that move the search result. */
  lemma FirstHitIsResult(hand: seq<Tile>, board: Board, turn: Move, i: int, r: int, j: int, k: int)
    requires FirstHit(hand, board, i, r, j, k)
    requires Describes(turn, hand, board, i, r, j, k)
    ensures SearchResult(hand, board, Some(turn))
  {
  }

  /** When no hand tile fits in any of its four poses, nothing fits. */
  lemma NoTurnMeansNoHit(hand: seq<Tile>, board: Board)
    requires HandMisses(hand, board, |hand|)
    ensures forall i, r, j, k :: !HandHit(hand, board, i, r, j, k)
  {
  }

  /**
   * `find_possible_turn`: tries every hand tile, in four successive quarter
   * turns of a fresh copy, at every open site of every placed tile, and
   * returns the first move the board accepts. It changes nothing.
   */
  method FindPossibleTurn(hand: Hand, board: Board) returns (turn: Option<Move>)
    ensures SearchResult(hand.tiles, board, turn)
    ensures turn.Some? ==> fresh(turn.value.tile) && turn.value.tile.Valid()
  {
    var i := 0;
    while i < |hand.tiles|
      invariant 0 <= i <= |hand.tiles|
      invariant HandMisses(hand.tiles, board, i)
    {
      var tile := hand.tiles[i];
      var found, rotated := FindTurn(board, tile.first, tile.second);
      assert HandMisses(hand.tiles, board, i);
      if found.Some? {
        var (r, j, k, footprint) := found.value;
        var site := board.tiles[j].placements[k];
        turn := Some(NewTurn(rotated, board.tiles[j], footprint, site, Some(tile)));
        FirstTurnIsFirstHit(hand.tiles, board, i, r, j, k);
        assert Describes(turn.value, hand.tiles, board, i, r, j, k);
        FirstHitIsResult(hand.tiles, board, turn.value, i, r, j, k);
        return;
      }
      assert tile == hand.tiles[i] && tile.first == old(tile.first) && tile.second == old(tile.second);
      HandMissesExtend(hand.tiles, board, i);
      i := i + 1;
    }
    NoTurnMeansNoHit(hand.tiles, board);
    turn := None;
  }
}

=== FILE: utils.dfy ===
/**
 * Shared value types of the domino game: the two orientations, the four
 * directions of extension, points, axis-aligned rectangles with pygame's
 * `Rect` semantics, the `Turn` record and the point-in-rectangle test.
 */
module Utils {

  datatype Option<T> = None | Some(value: T)

  datatype Orientation = Horizontal | Vertical

  datatype Direction = ToRight | ToLeft | ToTop | ToBottom

  /** Every orientation, in declaration order. */
  const Orientations: seq<Orientation> := [Horizontal, Vertical]

  /** Every direction, in declaration order. */
  const Directions: seq<Direction> := [ToRight, ToLeft, ToTop, ToBottom]

  /** The orientation a quarter turn away. */
  function Flip(o: Orientation): (p: Orientation)
    ensures p != o
  {
    if o == Horizontal then Vertical else Horizontal
  }

  /** The opposite direction (the reciprocal site of a placement points this way). */
  function Reverse(d: Direction): (e: Direction)
    ensures e != d
    ensures d in {ToRight, ToLeft} <==> e in {ToRight, ToLeft}
  {
    match d
    case ToTop => ToBottom
    case ToBottom => ToTop
    case ToLeft => ToRight
    case ToRight => ToLeft
  }

  lemma EnumsAreExhaustive(o: Orientation, d: Direction)
    ensures |Orientations| == 2 && o in Orientations
    ensures |Directions| == 4 && d in Directions
    ensures forall i, j :: 0 <= i < j < |Directions| ==> Directions[i] != Directions[j]
    ensures Orientations[0] != Orientations[1]
  {
  }

  lemma ReverseIsInvolution(d: Direction)
    ensures Reverse(Reverse(d)) == d
  {
  }

  datatype Point = Point(x: int, y: int)

  /**
   * A pygame `Rect`: left/top corner and size. Every rectangle this game
   * builds has a size of 50 or 100, so widths and heights are natural numbers.
   */
  datatype Rect = Rect(x: int, y: int, w: nat, h: nat)
  {
    function Right(): int { x + w }
    function Bottom(): int { y + h }
  }

  /** pygame `Rect.collidepoint`: the half-open rectangle contains the point. */
  predicate CollidePoint(r: Rect, px: int, py: int)
  {
    r.x <= px < r.Right() && r.y <= py < r.Bottom()
  }

  /**
   * pygame `Rect.colliderect`: the rectangles overlap with positive area;
   * a rectangle of zero width or height collides with nothing, and rectangles
   * that only share an edge do not collide.
   */
  predicate Colliderect(a: Rect, b: Rect)
  {
    a.w != 0 && a.h != 0 && b.w != 0 && b.h != 0 &&
    a.x < b.Right() && b.x < a.Right() && a.y < b.Bottom() && b.y < a.Bottom()
  }

  /** The closed rectangles `a` and `b` share a point: they overlap, or meet along an edge or at a corner. */
  predicate Touches(a: Rect, b: Rect)
  {
    a.x <= b.Right() && b.x <= a.Right() && a.y <= b.Bottom() && b.y <= a.Bottom()
  }

  /**
   * Growing `r` by one unit turns touching into colliding: a non-empty `s`
   * collides with the grown `r` exactly when it touches `r`.
   */
  lemma TouchingIsOverlap(r: Rect, s: Rect)
    requires s.w != 0 && s.h != 0
    ensures Colliderect(Inflated(r), s) <==> Touches(r, s)
  {
  }

  /** `r` covers every point of `s`. */
  predicate Contains(r: Rect, s: Rect)
  {
    r.x <= s.x && s.Right() <= r.Right() && r.y <= s.y && s.Bottom() <= r.Bottom()
  }

  /** The rectangle grown by one unit on every side. */
  function Inflated(r: Rect): (g: Rect)
    ensures Contains(g, r)
    ensures g.w == r.w + 2 && g.h == r.h + 2
    ensures forall px, py :: CollidePoint(r, px, py) ==> CollidePoint(g, px, py)
  {
    Rect(r.x - 1, r.y - 1, r.w + 2, r.h + 2)
  }

  /**
   * pygame `Rect.collidelist`: the index of the first rectangle of `rects`
   * that collides with `r`, or -1 when none does.
   */
  function CollideList(r: Rect, rects: seq<Rect>): (i: int)
    ensures -1 <= i < |rects|
    ensures i == -1 <==> forall k :: 0 <= k < |rects| ==> !Colliderect(r, rects[k])
    ensures 0 <= i ==> Colliderect(r, rects[i])
    ensures 0 <= i ==> forall k :: 0 <= k < i ==> !Colliderect(r, rects[k])
  {
    if |rects| == 0 then -1
    else if Colliderect(r, rects[0]) then 0
    else
      var j := CollideList(r, rects[1..]);
      if j == -1 then -1 else j + 1
  }

  /**
   * `in_it`: whether `position`, moved back by `shift` (no shift when none is
   * given), lies in the half-open rectangle `r`.
   */
  function InIt(r: Rect, position: Point, shift: Option<Point>): (b: bool)
    ensures shift.None? ==> b == CollidePoint(r, position.x, position.y)
    ensures shift.Some? ==>
      (b <==> r.x <= position.x - shift.value.x < r.x + r.w &&
              r.y <= position.y - shift.value.y < r.y + r.h)
  {
    var s := if shift.Some? then shift.value else Point(0, 0);
    CollidePoint(r, position.x - s.x, position.y - s.y)
  }

  lemma InItWithoutShiftIsZeroShift(r: Rect, position: Point)
    ensures InIt(r, position, None) == InIt(r, position, Some(Point(0, 0)))
  {
  }

  /**
   * A move: the tile to lay (already turned to its final orientation), the
   * placed tile it is laid against, its footprint tagged with the site's
   * direction, the site it takes, and the hand tile it comes from. Generic in
   * the tile and rectangle types, which belong to the game pieces.
   */
  datatype Turn<T, R> = Turn(tile: T, oldTile: T, rect: R, possibleRect: R, tileFromHand: T)

  /** The `Turn` constructor: `tile_from_hand` defaults to the tile laid. */
  function NewTurn<T, R>(tile: T, oldTile: T, rect: R, possibleRect: R, tileFromHand: Option<T>): (t: Turn<T, R>)
    ensures t.tile == tile && t.oldTile == oldTile
    ensures t.rect == rect && t.possibleRect == possibleRect
    ensures tileFromHand.Some? ==> t.tileFromHand == tileFromHand.value
    ensures tileFromHand.None? ==> t.tileFromHand == tile
  {
    Turn(tile, oldTile, rect, possibleRect, if tileFromHand.Some? then tileFromHand.value else tile)
  }
}
